=== FILE: README.md ===
# aihero chunking, merge and log helpers in Dafny

This project models the deterministic core of the *aihero* documentation
assistant and proves properties about it:

- **Chunking** (`project/chunks.py`). A document is cut into `{start, end, chunk}` records in one of four ways:
  - fixed windows;
  - sliding windows;
  - paragraphs separated by blank lines;
  - markdown sections under headers of a chosen level.

  The `chunk_text` dispatcher picks the strategy by name.
- **Hybrid search merge** (`project/search.py`). Lexical results and vector results are concatenated. The merge keeps the first record of each `(filename, start)` key and truncates to `top_k`.
- **Chunk-file names** (`app/utils/utils.py`). Covers three things:
  - the `owner_repo_branch_strategy_timestamp_rand.jsonl` name that saving builds;
  - the parser that reads it back;
  - the directory listing that keeps the names that parse.
- **Evaluation log helpers** (`project/eval.py`):
  - `simplify_log_messages` strips fields from agent logs to save tokens;
  - `extract_question_answer` finds the user's question and the model's final answer.

The model is functional. Chunks, records, JSON values and file metadata are
immutable datatypes, and strings are `seq<char>`. Python's own semantics are
spelled out where the code relies on them:

- clamped slicing;
- `str.strip`, `str.split` and `str.lower`;
- the leftmost-match, greedy semantics of `re.split`, for `\n\s*\n` and for the `MULTILINE` header pattern;
- truthiness;
- `dict.get` and `dict.pop`;
- `PurePath.name` and `PurePath.stem`.

Every error the code raises is a `Failure` of a `Result`:

- a `ValueError` keeps its class and message; it comes from the chunkers, the dispatcher and the file-name parser;
- a `KeyError` keeps the missing key; it comes from the log helpers;
- every other failure of the log helpers is a `TypeError` naming the failed operation. This includes the `AttributeError` Python raises when a string has no `.copy()` or `.get()`.

Parameters keep the code's defaults: `size=2000`, `step=1000` and `level=2` for `chunk_text`, `level=2` for `markdown_section_chunking`, `top_k=5` for the merge, and `keep_timestamps=False` for `simplify_log_messages`.

Files, one module each:

| file | module | contents |
|---|---|---|
| `wrappers.dfy` | `Wrappers` | `Option`, `Result`, the Python error kinds |
| `strings.dfy` | `Strings` | whitespace, `strip`, slicing, `split`/`join`, `lower` |
| `json.dfy` | `Json` | JSON values, `dict.get`, truthiness |
| `chunk_records.dfy` | `ChunkRecords` | the chunk record and facts shared by the strategies |
| `windows.dfy` | `Windows` | `simple_chunking`, `sliding_window_chunking` |
| `paragraphs.dfy` | `Paragraphs` | the `\n\s*\n` splitter and `paragraph_chunking` |
| `sections.dfy` | `Sections` | the header splitter and `markdown_section_chunking` |
| `dispatch.dfy` | `Dispatch` | `chunk_text` |
| `hybrid.dfy` | `Hybrid` | the merge of `hybrid_search` |
| `chunk_files.dfy` | `ChunkFiles` | file name, `parse_chunk_filename`, `list_chunks` |
| `eval_logs.dfy` | `EvalLogs` | `simplify_log_messages`, `extract_question_answer` |

Where the documentation and the code disagree, the model follows the code.

- **`chunk_text` names.** Its type hint and docstring call the section strategy `"markdown"`, but the code compares with `"section"`. So `"markdown"` raises `Unknown method: markdown` (`Dispatch.MarkdownIsRejected`).
- **Sliding coverage.** The sliding windows are described as covering the text up to its end. The code only guarantees that when `step <= size`. With a larger step, the last characters can fall in no window (`Windows.SlidingMayDropTail`).
- **Section offsets.** They are cumulative counters over the rebuilt chunk texts, not positions in the input (`Sections.MarkdownSectionChunking`).
- **Paragraph offsets.** They assume that the input has no leading whitespace, that every separator is exactly `"\n\n"`, and that no paragraph ends or starts with spaces next to a blank line. Each of these makes them drift:
  - leading whitespace: for `" a\n\nb"` the chunk `"a"` is put at 0, although it sits at 1;
  - spaces next to a blank line: for `"a \n\nb"` the chunk `"b"` is put at 3, although it sits at 4;
  - whitespace inside a blank line, or several blank lines in a row.

  `Paragraphs.ParagraphChunkingOfJoined` states the drift for texts joined from trimmed paragraphs.
- **File-name round trip.** The timestamp written into a file name contains an underscore (`%Y%m%d_%H%M%S`). When the name is parsed back:
  - the "timestamp" field receives the date only;
  - the "rand" field receives the time of day;
  - the hex token is the ignored seventh field (`ChunkFiles.RoundTrip`).

## Model

| member | source | states |
|---|---|---|
| Windows.SimpleChunking | aihero/project/chunks.py:14-21 | Fails with `ValueError("Size must be positive.")` exactly when `size <= 0`. Otherwise the chunk texts concatenate back to the input, the list is empty only for empty text, and chunk `k` is the `size`-wide window at `k * size` with its text cut by Python slicing. |
| Windows.SimpleShape | aihero/project/chunks.py:18-20 | The loop from position `i` yields no window exactly when `i` is at or past the end. The last window's `end` reaches the end of the text. Windows start at `i` and advance by `size`. |
| Windows.SimpleJoins | aihero/project/chunks.py:18-20 | The texts of the windows from `i` concatenate to the suffix of the text from `i`: the windows neither overlap nor leave gaps. |
| Windows.SimpleLengths | aihero/project/chunks.py:19 | Every window but the last holds exactly `size` characters. The last holds what remains of the text. |
| Windows.SimpleCount | aihero/project/chunks.py:18 | The number of windows is the ceiling of `len(text) / size`. |
| Windows.SlidingWindowChunking | aihero/project/chunks.py:38-47 | Fails with `ValueError("Size and step must be positive.")` exactly when `size <= 0` or `step <= 0`. Otherwise chunk `k` is the `size`-wide window at `k * step`, and the list is empty only for empty text. Every window but the last ends before the end of the text. The last window either reaches the end or the next start would lie past it. |
| Windows.SlidingShape | aihero/project/chunks.py:42-44 | The loop from `i` yields nothing exactly when `i` is at or past the end. Its windows start at `i` and advance by `step`. |
| Windows.SlidingStops | aihero/project/chunks.py:45-46 | The early `break` fires only on the last window: every earlier window ends inside the text. The loop ends because the last window reaches the end or the range is exhausted. |
| Windows.SlidingCoversText | aihero/project/chunks.py:42-46 | With `0 < step <= size` and non-empty text, the last window reaches the end of the text and every position of the text lies in some window. |
| Windows.SlidingMayDropTail | aihero/project/chunks.py:42-46 | With `step > size`, a text of length `step + size + 1` gets two windows, and its last character lies in neither of them. |
| ChunkRecords.ArithmeticStarts | aihero/project/chunks.py:18 | Starts that begin at `first` and advance by a fixed step are `first + k * step`, as `range(0, len(text), step)` produces them. |
| Paragraphs.FirstSeparatorIsLeftmost | aihero/project/chunks.py:59 | The separator search finds a match of `\n\s*\n` that no earlier position has and that is the longest at its start, as the greedy regex takes it. When it finds none, no match exists. |
| Paragraphs.ParagraphChunking | aihero/project/chunks.py:59-69 | The chunk texts are exactly the non-empty stripped pieces of `re.split` on the stripped input, in order. `end - start` is the text length. The first chunk starts at 0 and each next one starts two past the previous end. There are no chunks exactly when the input is whitespace only. |
| Paragraphs.ParagraphsFrom | aihero/project/chunks.py:61-68 | Chunk `k` holds the `k`-th piece whose stripped form is non-empty, stripped; pieces that strip to nothing are skipped. Chunks start at the running `start`, and each next one starts two after the previous end. |
| Paragraphs.Split | aihero/project/chunks.py:59 | `re.split(r"\n\s*\n")` gives at least one piece. The whole text is the only piece exactly when it contains no match of the pattern. |
| Paragraphs.SplitCovers | aihero/project/chunks.py:59 | For every text, the pieces of `re.split(r"\n\s*\n")` joined back with the matches it removed give the text again. Each removed match is whitespace that begins and ends with a newline, and no piece contains a match. |
| Paragraphs.SplitJoined | aihero/project/chunks.py:59 | `re.split(r"\n\s*\n")` applied to non-empty stripped paragraphs joined by any blank-line separators gives back exactly those paragraphs. |
| Paragraphs.ParagraphChunkingOfJoined | aihero/project/chunks.py:59-69 | Chunking such a joined text gives one chunk per paragraph, holding that paragraph. Its `start` is the paragraph's true position less the accumulated excess of the separators over two characters. |
| Paragraphs.ExactOffsetsForSingleBlankLines | aihero/project/chunks.py:66-68 | For trimmed paragraphs joined by exactly `"\n\n"`, every chunk's `[start, end)` locates its text in the input exactly. |
| Sections.FindHeader | aihero/project/chunks.py:82-84 | The search from `p` finds the leftmost line at or after `p` that matches `^(#{level} )(.+)$` under `MULTILINE`. When it finds none, there is none. |
| Sections.FindHeaderIsFirst | aihero/project/chunks.py:82-84 | The regex search agrees with an independent scan of every position. The next search resumes at the end of the matched line without skipping any header line. |
| Sections.PartsFrom | aihero/project/chunks.py:84 | `pattern.split` yields one leading part followed by whole triples: the number of parts is one more than a multiple of three. |
| Sections.LeadingPart | aihero/project/chunks.py:84 | The leading part is the text from the search position up to the first header line after it, or to the end when there is none. It is the only part exactly when no header line follows. |
| Sections.PartsFollowHeaders | aihero/project/chunks.py:84 | `pattern.split(text)` yields the text before the first header line, then for each header line its hashes, its title, and the body up to the next header line. |
| Sections.SectionsFrom | aihero/project/chunks.py:88-94 | The loop makes one chunk per triple of split parts. Chunks start at the running `start`, `end - start` is the text length, and each next chunk starts where the previous one ended. |
| Sections.SectionsFromChunks | aihero/project/chunks.py:88-94 | Chunk `k` is the loop body applied to the `k`-th triple of split parts. |
| Sections.MarkdownSectionChunking | aihero/project/chunks.py:82-95 | Offsets run contiguously from 0, and `end - start` equals the chunk's length. |
| Sections.SectionsFollowHeaders | aihero/project/chunks.py:82-95 | There is one chunk per header line of the level, in text order. Chunk `k` is the stripped header line, followed by a blank line and the stripped body up to the next header when that body is not empty. Text before the first header is dropped. |
| Dispatch.ChunkText | aihero/project/chunks.py:116-125 | Fails exactly for an unknown name or for the invalid sizes of the chosen strategy. An unknown name fails with `ValueError("Unknown method: " + name)`. |
| Dispatch.Routing | aihero/project/chunks.py:116-123 | Each of `simple`, `sliding`, `paragraph` and `section` reaches its own strategy with the parameters that strategy reads. |
| Dispatch.MarkdownIsRejected | aihero/project/chunks.py:99-125 | `"markdown"`, the name the type hint and docstring advertise, is rejected as an unknown method. |
| Dispatch.ChunksInTextOrder | aihero/project/chunks.py:116-125 | Whatever the strategy, a successful result starts at offset 0 and its starts never decrease. |
| Hybrid.FirstIndices | aihero/project/search.py:134-141 | The reference definition lists, in increasing order, exactly the positions whose record is the first with its `(filename, start)` key. |
| Hybrid.HybridMerge | aihero/project/search.py:134-143 | The loop with its `seen` set, followed by `merged[:top_k]`, equals the first-occurrence deduplication of `text_results + vector_results` truncated to `top_k`. |
| Hybrid.MergeStep | aihero/project/search.py:137-141 | One turn of the loop: a record joins the merge exactly when its key is not among the keys of the records before it, and its key is then among the seen keys. |
| Hybrid.MergedIsFirstOccurrences | aihero/project/search.py:134-143 | The merged result has at most `top_k` records and no two of them share a key. Each is a record of the input at the first position holding its key. |
| Hybrid.EveryKeyKept | aihero/project/search.py:137-141 | Every key present in the input is represented in the untruncated merge. |
| Hybrid.TextResultsFirst | aihero/project/search.py:137 | The merge begins with the deduplicated text results. Vector results come only after all distinct text results. |
| Hybrid.VectorKeptOnlyIfNew | aihero/project/search.py:137-141 | A vector result whose key some text result already has is not kept. |
| Hybrid.MissingKeysCollapse | aihero/project/search.py:138 | A record without `filename` or `start` reads those as `None`. Two records that lack both cannot both survive the merge. |
| ChunkFiles.ChunkFilename | aihero/app/utils/utils.py:25-27 | The name ends in `.jsonl`. When none of the lower-cased owner, repository and branch, the strategy, the timestamp and the token contains `_`, splitting the part before `.jsonl` at `_` gives exactly those six values. |
| ChunkFiles.BaseName | aihero/app/utils/utils.py:57 | `Path(filename).name` contains no `/` and is never `.`. |
| ChunkFiles.BaseNameIsLastKept | aihero/app/utils/utils.py:57 | The name is the last component of the path, split at `/`, that is neither empty nor `.`. It is empty exactly when every component is empty or `.`. |
| ChunkFiles.LastComponent | aihero/app/utils/utils.py:57 | Of a list of path components, the result is the last one that is neither empty nor `.`, or the empty name when there is no such component. |
| ChunkFiles.LastIndexOf | aihero/app/utils/utils.py:57 | The `rfind` the suffix rule needs. A position found holds the character and no later position does. `None` (Python's `-1`) means the character does not occur. |
| ChunkFiles.Stem | aihero/app/utils/utils.py:57 | `PurePath.stem` is a prefix of the name. |
| ChunkFiles.StemCutsLastSuffix | aihero/app/utils/utils.py:57 | A shorter stem ends just before the last dot of the name, and that dot is neither the first nor the last character. A stem equal to the name means the name's last dot, if any, is its first or last character. |
| ChunkFiles.ParseChunkFilename | aihero/app/utils/utils.py:57-70 | Fails with `ValueError("Unexpected chunk filename format: " + filename)` exactly when the stem has fewer than five underscores (fewer than six fields). Otherwise the six fields hold no underscore and, joined by `_`, form a prefix of the stem that ends at an underscore or at the end of the stem. |
| ChunkFiles.RoundTrip | aihero/app/utils/utils.py:25-27 | A name built from underscore- and slash-free owner, repository, branch and strategy parses back to the lower-cased owner, repository and branch and the unchanged strategy. Its "timestamp" is the date half and its "rand" is the time half of the `%Y%m%d_%H%M%S` timestamp. |
| ChunkFiles.ListChunks | aihero/app/utils/utils.py:82-89 | The loop equals the reference listing: the `*.jsonl` names whose parse succeeds, each with its metadata, in directory order. Names that fail to parse are skipped without failing. |
| ChunkFiles.KeptMembers | aihero/app/utils/utils.py:83-88 | An entry is listed exactly when its name is among the directory's names, ends with `.jsonl`, and parses to the entry's metadata. |
| ChunkFiles.KeptAppend | aihero/app/utils/utils.py:83-88 | Listing a directory split into two batches lists each batch in turn: each name is kept or skipped on its own. |
| Strings.SplitOn | aihero/app/utils/utils.py:58 | `str.split` by one character gives one more field than there are separators in the text. No field contains the separator, and joining the fields with it gives the text back. |
| Strings.SplitJoin | aihero/app/utils/utils.py:58 | `str.split` by one character inverts `join` on fields that do not contain it. |
| Strings.StripEmpty | aihero/project/chunks.py:63-65 | `str.strip()` gives the empty string exactly when the input is whitespace only. |
| EvalLogs.SimplifyFieldsEffects | aihero/project/eval.py:73-88 | Only the listed keys are removed from each part, and no other value changes except the content of a tool return. For each kind: <br>- tool returns have their content redacted and lose `tool_call_id` and `metadata`; <br>- tool calls lose exactly `tool_call_id`; <br>- text parts lose exactly `id`; <br>- user prompts lose exactly `timestamp`, and only when timestamps are not kept; <br>- parts of any other kind are unchanged. <br>`timestamp` survives exactly when it was present and either timestamps are kept or the kind is not a user prompt or tool return. |
| EvalLogs.SimplifyPart | aihero/project/eval.py:72-90 | A part is simplified exactly when it is a dictionary with a `part_kind`. Otherwise `part.copy()` or `part["part_kind"]` raises. |
| EvalLogs.SimplifyParts | aihero/project/eval.py:72-90 | The inner loop succeeds exactly when every part can be simplified. Part count and part order are then preserved. |
| EvalLogs.Elements | aihero/project/eval.py:72 | A `for` loop whose body starts with a dictionary method runs over a list's items. An empty string or dictionary gives no items. Any other value fails. |
| EvalLogs.SimplifyMessage | aihero/project/eval.py:69-95 | A message is simplified exactly when it is a dictionary with `kind` and with `parts` that are either a list of well-formed parts or an empty string or dictionary. The result has exactly the keys `kind` and `parts`, the same `kind`, and the simplified parts in order. |
| EvalLogs.SimplifyLogMessages | aihero/project/eval.py:67-97 | Succeeds exactly when every message is well formed. The output then has one simplified message per input message, in order. |
| EvalLogs.SimplifyIdempotent | aihero/project/eval.py:67-97 | Simplifying an already simplified log again changes nothing. |
| EvalLogs.SimplifyFixedPoint | aihero/project/eval.py:67-97 | A log whose every message is its own simplification is returned unchanged. |
| EvalLogs.ExtractQuestionAnswer | aihero/project/eval.py:100-126 | Succeeds exactly when both loops complete. Both loops run in full before the pair is returned, so an error in either is raised. |
| EvalLogs.ReadableLogsExtract | aihero/project/eval.py:106-126 | Neither loop raises on a log of dictionaries whose `parts`, when present, are lists of dictionaries or an empty string or dictionary. |
| EvalLogs.Scan | aihero/project/eval.py:106-124 | On a readable log the outer loop never fails. It ends with a falsy value only when no message's first part of the kind has truthy content. |
| EvalLogs.Question | aihero/project/eval.py:106-115 | On a readable log the question loop never fails. It ends with a falsy question only when no message's first user prompt has truthy content. |
| EvalLogs.Answer | aihero/project/eval.py:117-124 | On a readable log the answer loop over `reversed(messages)` never fails. It ends with a falsy answer only when no message's first text part has truthy content. |
| EvalLogs.QuestionIs | aihero/project/eval.py:106-115 | On a readable log (dictionaries whose `parts`, when present, are lists of dictionaries or an empty string or dictionary): the question is `None` when no part is a user prompt. Otherwise it is the content of the first user prompt of the first message whose first user prompt has truthy content. When no such message exists, it is the falsy content from the last message that has a user prompt. |
| EvalLogs.AnswerIs | aihero/project/eval.py:117-124 | On a readable log: the answer is `None` when no part is text. Otherwise it is the content of the first text part of the last message whose first text part has truthy content. When no such message exists, it is the falsy content of the earliest message that has a text part. |
| EvalLogs.ScanFirstTruthy | aihero/project/eval.py:109-115 | The outer loop stops at the first message whose first part of the kind has truthy content, and returns that content. |
| EvalLogs.ScanLastFalsy | aihero/project/eval.py:109-115 | With no truthy content anywhere, the outer loop ends holding the content of the last message that has a part of the kind. |

## Left out

- File I/O. Writing and reading the JSONL files (`save_chunks_jsonl` body, `load_chunks_jsonl`) is library serialisation and is not modelled. The input of `list_chunks` is the directory's entry names, in the order the directory yields them. The `*.jsonl` pattern of the glob is modelled as a suffix test on each name.
- Clock and randomness. `datetime.now()` and `secrets.token_hex(2)` become the parameters `ts` and `rand` of `ChunkFiles.ChunkFilename`. `ChunkFiles.IsTimestamp` and `ChunkFiles.IsHexToken` describe the values they return.
- Search back ends. The text index, the embedding model and the vector index, with their float scoring, are not modelled. Their outputs are the opaque record sequences handed to `Hybrid.HybridMerge`.
- `Json.Value` has no float case. The merge reads only `filename` and `start`; the other fields of a record, such as the float scores of a vector search, are opaque to it and are carried along unchanged.
- `Hybrid.HybridMerge`: `top_k` is a `nat`. A negative `top_k` would be a Python slice from the end and is not modelled.
- `Hybrid.Key`: key equality is structural equality of JSON values. Python's `1 == 1.0 == True` and unhashable keys, such as a list-valued `filename` that raises `TypeError`, are not modelled.
- Strings. Whitespace is the six ASCII characters (space, tab, newline, carriage return, vertical tab, form feed). Python's `str.strip()` and the regex `\s` also treat the ASCII separators `\x1c`-`\x1f` as whitespace, as well as non-ASCII whitespace; neither is modelled. `lower` maps only `A`-`Z`, so Unicode case mapping is not modelled either.
- `Sections.MarkdownSectionChunking`: `level` is a `nat`. A negative level would make the regex `#{-1}`, which Python reads as literal characters, and is not modelled. Level 0 is included and means a line starting with a space.
- `Dispatch.ChunkText`: `level` is any `int`, since only the section strategy reads it. For `"section"` a negative level is excluded, for the reason given under `Sections.MarkdownSectionChunking`.
- `ChunkFiles.Stem`: models the `PurePath.suffix` rule in which a name ending in a dot has no suffix, so `"a_b_c_d_e_f."` keeps its final dot and parses with `rand == "f."`. A Python version that counts a final dot as a suffix would give `"f"`. A leading dot is never a suffix.
- `ChunkFiles.BaseName`: only `/` separates path components (POSIX). A leading `//` kept as a root is not modelled, because the name is the last non-empty component either way.
- `EvalLogs.SimplifyPart`: every exception the code can raise is modelled as a `TypeError` or `KeyError` failure. An `AttributeError` from `.copy()` on a non-dictionary is reported as a `TypeError`.
- `EvalLogs.SimplifyMessage`: `parts` given as an empty string or dictionary yields no parts, as in Python. A non-empty one fails with a `TypeError` that stands for the `AttributeError` raised on its first character or key; the characters or keys themselves are not modelled.
- `EvalLogs.PartsOrEmpty`: the same holds for the `parts` that `extract_question_answer` reads.
- `EvalLogs.SimplifyFields`: dictionaries are maps, so key order is not modelled.
- Evaluation with the LLM (`evaluate_log_record`, `generate_questions_from_chunks`, which samples randomly) is not part of this model. It calls a remote model.
- The command-line and Streamlit front ends, repository download, agent code, prompt templates and schemas are not part of this model. They only call the core or hold constants.

=== FILE: chunk_files.dfy ===
/** Chunk-file names in `app/utils/utils.py`: the name `save_chunks_jsonl`
    gives a saved chunk file, `parse_chunk_filename`, and the filter of
    `list_chunks` that skips names which do not parse. The clock and the
    random generator are parameters: `ts` is the already formatted time and
    `rand` the already drawn hex token. */
module ChunkFiles {
  import opened Wrappers
  import opened Strings

  // ---------------------------------------------------------- name parts

  predicate IsDigit(c: char)
  {
    '0' <= c <= '9'
  }

  predicate IsHexDigit(c: char)
  {
    IsDigit(c) || 'a' <= c <= 'f'
  }

  /** What `strftime("%Y%m%d_%H%M%S")` yields for a four-digit year: eight
      date digits, an underscore and six time digits. */
  predicate IsTimestamp(ts: string)
  {
    && |ts| == 15
    && ts[8] == '_'
    && (forall i :: 0 <= i < 8 ==> IsDigit(ts[i]))
    && (forall i :: 9 <= i < 15 ==> IsDigit(ts[i]))
  }

  /** What `secrets.token_hex(2)` yields: four lower-case hex digits. */
  predicate IsHexToken(rand: string)
  {
    |rand| == 4 && forall i :: 0 <= i < 4 ==> IsHexDigit(rand[i])
  }

  /** The file name built by `save_chunks_jsonl`. Owner, repository and
      branch are lower-cased; the strategy is not. */
  function ChunkFilename(owner: string, repo: string, branch: string, strategy: string,
                         ts: string, rand: string): (name: string)
    ensures EndsWith(name, ".jsonl")
    ensures var fields := [Lower(owner), Lower(repo), Lower(branch), strategy, ts, rand];
      (forall i :: 0 <= i < 6 ==> '_' !in fields[i]) ==> SplitOn(name[..|name| - 6], '_') == fields
  {
    var fields := [Lower(owner), Lower(repo), Lower(branch), strategy, ts, rand];
    SplitOfFreeJoin(fields, '_');
    Join(fields, '_') + ".jsonl"
  }

  /** Joined fields split back to themselves when none holds the separator. */
  lemma SplitOfFreeJoin(fields: seq<string>, sep: char)
    requires |fields| >= 1
    ensures (forall i :: 0 <= i < |fields| ==> sep !in fields[i]) ==> SplitOn(Join(fields, sep), sep) == fields
  {
    if forall i :: 0 <= i < |fields| ==> sep !in fields[i] {
      SplitJoin(fields, sep);
    }
  }

  // ------------------------------------------------------------- pathlib

  /** `Path(p).name` on POSIX: the last component, where empty components
      (from repeated or trailing slashes) and `.` components do not count. */
  function BaseName(p: string): (name: string)
    ensures '/' !in name && name != "."
  {
    LastComponent(SplitOn(p, '/'))
  }

  /** The name is the last component of the path that pathlib does not
      drop, and it is empty exactly when pathlib drops every component. */
  lemma BaseNameIsLastKept(p: string)
    ensures var comps, name := SplitOn(p, '/'), BaseName(p);
      && (name == [] <==> forall i :: 0 <= i < |comps| ==> Ignored(comps[i]))
      && (name != [] ==> exists i :: 0 <= i < |comps| && comps[i] == name && IgnoredAfter(comps, i))
  {
    assert BaseName(p) == LastComponent(SplitOn(p, '/'));
  }

  /** A component pathlib drops: empty, or the current directory `.`. */
  predicate Ignored(c: string)
  {
    c == [] || c == "."
  }

  /** Every component after position `i` is dropped. */
  predicate IgnoredAfter(comps: seq<string>, i: nat)
  {
    forall j :: i < j < |comps| ==> Ignored(comps[j])
  }

  /** The last component that is not dropped, or the empty name. */
  function LastComponent(comps: seq<string>): (c: string)
    requires forall i :: 0 <= i < |comps| ==> '/' !in comps[i]
    ensures '/' !in c
    ensures c == [] || c in comps
    ensures c == [] <==> forall i :: 0 <= i < |comps| ==> Ignored(comps[i])
    ensures c != [] ==> c != "." && exists i :: 0 <= i < |comps| && comps[i] == c && IgnoredAfter(comps, i)
  {
    if |comps| == 0 then []
    else
      var c := comps[|comps| - 1];
      var init := comps[..|comps| - 1];
      assert forall i :: 0 <= i < |init| ==> init[i] == comps[i];
      if c == [] || c == "." then LastComponent(init) else c
  }

  /** `s.rfind(c)`, with `None` for Python's `-1`. */
  function LastIndexOf(s: string, c: char): (r: Option<nat>)
    ensures r.Some? ==> r.value < |s| && s[r.value] == c
    ensures r.Some? ==> forall i :: r.value < i < |s| ==> s[i] != c
    ensures r.None? ==> c !in s
  {
    if |s| == 0 then None
    else if s[|s| - 1] == c then Some(|s| - 1)
    else LastIndexOf(s[..|s| - 1], c)
  }

  /** `PurePath.stem` of a name: the final suffix is removed when its dot is
      neither the first nor the last character. */
  function Stem(name: string): (stem: string)
    ensures stem <= name
  {
    match LastIndexOf(name, '.')
    case Some(i) => if 0 < i < |name| - 1 then name[..i] else name
    case None => name
  }

  /** The stem stops at the last dot when that dot is neither first nor
      last; otherwise the name is its own stem. */
  lemma StemCutsLastSuffix(name: string)
    ensures var stem := Stem(name);
      && (|stem| < |name| ==>
            && 0 < |stem| < |name| - 1
            && name[|stem|] == '.'
            && '.' !in name[|stem| + 1..])
      && (|stem| == |name| ==>
            forall i :: 0 < i < |name| - 1 && name[i] == '.' ==> '.' in name[i + 1..])
  {
  }

  // ------------------------------------------------------------- parsing

  datatype ChunkMeta = ChunkMeta(owner: string, repo: string, branch: string,
                                 strategy: string, timestamp: string, rand: string)

  function Fields(m: ChunkMeta): seq<string>
  {
    [m.owner, m.repo, m.branch, m.strategy, m.timestamp, m.rand]
  }

  /** `parse_chunk_filename(filename)`: the stem is split at every `'_'`;
      fewer than six fields is an error, and fields past the sixth are
      ignored. */
  function ParseChunkFilename(filename: string): (r: Result<ChunkMeta>)
    ensures var stem := Stem(BaseName(filename));
      r.Failure? <==> CountChar(stem, '_') < 5
    ensures r.Failure? ==> r.error == ValueError("Unexpected chunk filename format: " + filename)
    ensures r.Success? ==>
      var stem := Stem(BaseName(filename));
      && (forall i :: 0 <= i < 6 ==> '_' !in Fields(r.value)[i])
      && Join(Fields(r.value), '_') <= stem
      && (|stem| == |Join(Fields(r.value), '_')| || stem[|Join(Fields(r.value), '_')|] == '_')
  {
    var stem := Stem(BaseName(filename));
    var parts := SplitOn(stem, '_');
    if |parts| < 6 then Failure(ValueError("Unexpected chunk filename format: " + filename))
    else
      var m := ChunkMeta(parts[0], parts[1], parts[2], parts[3], parts[4], parts[5]);
      assert Fields(m) == parts[..6];
      JoinPrefix(parts, 6, '_');
      Success(m)
  }

  /** Joining a sequence is joining its first `n` fields, then a separator
      and the rest when there is any. */
  lemma {:induction false} JoinPrefix(parts: seq<string>, n: nat, sep: char)
    requires 1 <= n <= |parts|
    ensures Join(parts, sep) == Join(parts[..n], sep) +
      (if n < |parts| then [sep] + Join(parts[n..], sep) else [])
  {
    if n == |parts| {
      assert parts[..n] == parts;
    } else if n > 1 {
      JoinPrefix(parts[1..], n - 1, sep);
      assert parts[1..][..n - 1] == parts[..n][1..];
      assert parts[1..][n - 1..] == parts[n..];
    }
  }

  // ----------------------------------------------------------- round trip

  /** A name built from underscore-free fields parses back to the lower-cased
      owner, repository and branch and the strategy, but the timestamp's own
      underscore shifts the rest: "timestamp" receives the date, "rand" the
      time of day, and the hex token is the ignored seventh field. */
  lemma RoundTrip(owner: string, repo: string, branch: string, strategy: string,
                  ts: string, rand: string)
    requires '_' !in owner && '_' !in repo && '_' !in branch && '_' !in strategy
    requires '/' !in owner && '/' !in repo && '/' !in branch && '/' !in strategy
    requires IsTimestamp(ts) && IsHexToken(rand)
    ensures ParseChunkFilename(ChunkFilename(owner, repo, branch, strategy, ts, rand))
         == Success(ChunkMeta(Lower(owner), Lower(repo), Lower(branch), strategy, ts[..8], ts[9..]))
  {
    LowerKeepsAbsent(owner, '_');
    LowerKeepsAbsent(repo, '_');
    LowerKeepsAbsent(branch, '_');
    LowerKeepsAbsent(owner, '/');
    LowerKeepsAbsent(repo, '/');
    LowerKeepsAbsent(branch, '/');
    var fields := [Lower(owner), Lower(repo), Lower(branch), strategy, ts[..8], ts[9..], rand];
    NameOfFields(Lower(owner), Lower(repo), Lower(branch), strategy, ts, rand);
    TimestampHalves(ts);
    assert forall i :: 0 <= i < |rand| ==> rand[i] != '_' && rand[i] != '/';
    ParseOfFields(fields);
  }

  /** The date and time halves of a timestamp hold digits only. */
  lemma TimestampHalves(ts: string)
    requires IsTimestamp(ts)
    ensures '_' !in ts[..8] && '/' !in ts[..8] && '_' !in ts[9..] && '/' !in ts[9..]
  {
    assert forall i :: 0 <= i < 8 ==> ts[..8][i] == ts[i];
    assert forall i :: 0 <= i < 6 ==> ts[9..][i] == ts[9 + i];
  }

  /** The built name, with the timestamp's underscore counted as a field
      separator. */
  lemma NameOfFields(owner: string, repo: string, branch: string, strategy: string,
                     ts: string, rand: string)
    requires IsTimestamp(ts)
    ensures Join([owner, repo, branch, strategy, ts, rand], '_')
         == Join([owner, repo, branch, strategy, ts[..8], ts[9..], rand], '_')
  {
    var date, time := ts[..8], ts[9..];
    assert ts == date + "_" + time;
    var six := [owner, repo, branch, strategy, ts, rand];
    var seven := [owner, repo, branch, strategy, date, time, rand];
    JoinOfSplitField(six, seven, 4, date, time);
  }

  /** Seven fields free of `'_'` and `'/'`, joined and given the `.jsonl`
      extension, parse back to their first six. */
  lemma ParseOfFields(fields: seq<string>)
    requires |fields| == 7
    requires forall i :: 0 <= i < 7 ==> '_' !in fields[i] && '/' !in fields[i]
    ensures ParseChunkFilename(Join(fields, '_') + ".jsonl")
         == Success(ChunkMeta(fields[0], fields[1], fields[2], fields[3], fields[4], fields[5]))
  {
    var stem := Join(fields, '_');
    var name := stem + ".jsonl";
    JoinFree(fields, '_', '/');
    NoSlashAdded(stem);
    SplitNoSep(name, '/');
    assert BaseName(name) == name;
    assert |stem| > 0 by {
      JoinPrefix(fields, 1, '_');
    }
    StemDropsExtension(stem);
    SplitJoin(fields, '_');
  }

  /** Adding the `.jsonl` extension adds no `'/'`. */
  lemma NoSlashAdded(stem: string)
    requires '/' !in stem
    ensures '/' !in stem + ".jsonl"
  {
    var t := ".jsonl";
    assert forall i :: 0 <= i < |t| ==> t[i] != '/';
    assert forall i :: 0 <= i < |stem + t| ==> (stem + t)[i] != '/' by {
      forall i | 0 <= i < |stem + t|
        ensures (stem + t)[i] != '/'
      {
        if i < |stem| {
          assert (stem + t)[i] == stem[i];
        } else {
          assert (stem + t)[i] == t[i - |stem|];
        }
      }
    }
  }

  /** The dot before an extension without dots is the last dot of the name. */
  lemma DotBeforeSuffix(stem: string, ext: string)
    requires forall i :: 0 <= i < |ext| ==> ext[i] != '.'
    ensures LastIndexOf(stem + ['.'] + ext, '.') == Some(|stem|)
  {
    LastIndexAtEnd(stem, '.');
    LastIndexSkips(stem + ['.'], ext, '.');
  }

  /** A character added at the end is its own last occurrence. */
  lemma LastIndexAtEnd(s: string, c: char)
    ensures LastIndexOf(s + [c], c) == Some(|s|)
  {
    assert (s + [c])[|s|] == c;
  }

  /** `jsonl` holds no dot. */
  lemma NoDotInExtension()
    ensures forall i :: 0 <= i < |"jsonl"| ==> "jsonl"[i] != '.'
  {
  }

  /** The stem of a non-empty stem with `.jsonl` added is that stem. */
  lemma StemDropsExtension(stem: string)
    requires |stem| > 0
    ensures Stem(stem + ".jsonl") == stem
  {
    NoDotInExtension();
    assert stem + ".jsonl" == stem + ['.'] + "jsonl";
    DotBeforeSuffix(stem, "jsonl");
  }

  /** Characters after the last occurrence that differ from it do not move it. */
  lemma {:induction false} LastIndexSkips(s: string, t: string, c: char)
    requires forall i :: 0 <= i < |t| ==> t[i] != c
    ensures LastIndexOf(s + t, c) == LastIndexOf(s, c)
  {
    if |t| > 0 {
      var u := t[..|t| - 1];
      assert (s + t)[..|s + t| - 1] == s + u;
      assert (s + t)[|s + t| - 1] == t[|t| - 1];
      LastIndexSkips(s, u, c);
    } else {
      assert s + t == s;
    }
  }

  /** A character absent from every field and different from the separator
      is absent from the joined text. */
  lemma {:induction false} JoinFree(parts: seq<string>, sep: char, c: char)
    requires c != sep
    requires forall i :: 0 <= i < |parts| ==> c !in parts[i]
    ensures c !in Join(parts, sep)
  {
    if |parts| > 1 {
      JoinFree(parts[1..], sep, c);
      assert c !in parts[0];
    }
  }

  /** Joining with field `k` replaced by two fields is the same as joining
      with field `k` equal to those two joined by the separator. */
  lemma {:induction false} JoinOfSplitField(six: seq<string>, seven: seq<string>, k: nat,
                                            a: string, b: string)
    requires k + 1 < |six| && |seven| == |six| + 1
    requires six[k] == a + [ '_' ] + b
    requires six[..k] == seven[..k] && seven[k] == a && seven[k + 1] == b
    requires six[k + 1..] == seven[k + 2..]
    ensures Join(six, '_') == Join(seven, '_')
  {
    if k == 0 {
      assert six[1..] == seven[2..];
      assert seven[1..][1..] == seven[2..];
      assert Join(seven[1..], '_') == b + ['_'] + Join(seven[2..], '_');
    } else {
      assert six[0] == seven[0];
      JoinOfSplitField(six[1..], seven[1..], k - 1, a, b);
    }
  }

  // --------------------------------------------------------- list_chunks

  /** A `list_chunks` entry: the file name and its parsed metadata. */
  datatype Listed = Listed(name: string, meta: ChunkMeta)

  /** Reference definition of the listing: the `*.jsonl` names that parse,
      with their metadata, in the order given. */
  function Kept(names: seq<string>): seq<Listed>
  {
    Collect(names, Entry)
  }

  /** The entries of `f` for each name, one name after the other. */
  function Collect(names: seq<string>, f: string -> seq<Listed>): seq<Listed>
  {
    if |names| == 0 then []
    else Collect(names[..|names| - 1], f) + f(names[|names| - 1])
  }

  /** The entry one name contributes: itself and its metadata, or nothing. */
  function Entry(name: string): seq<Listed>
  {
    var r := ParseChunkFilename(name);
    if EndsWith(name, ".jsonl") && r.Success? then [Listed(name, r.value)] else []
  }

  /** `list_chunks` over the directory's names, in the order the directory
      listing returns them: a name that does not parse is skipped and the
      loop goes on. */
  method ListChunks(names: seq<string>) returns (results: seq<Listed>)
    ensures results == Kept(names)
  {
    results := [];
    var i := 0;
    while i < |names|
      invariant 0 <= i <= |names|
      invariant results == Kept(names[..i])
    {
      assert names[..i + 1][..i] == names[..i];
      assert Kept(names[..i + 1]) == Kept(names[..i]) + Entry(names[i]);
      var name := names[i];
      if EndsWith(name, ".jsonl") {
        match ParseChunkFilename(name)
        case Success(meta) =>
          results := results + [Listed(name, meta)];
        case Failure(_) =>
      }
      i := i + 1;
    }
    assert names[..|names|] == names;
  }

  /** An entry is listed exactly when its name is one of the `*.jsonl` names
      and parses to its metadata. */
  lemma KeptMembers(names: seq<string>, e: Listed)
    ensures e in Kept(names) <==>
      e.name in names && EndsWith(e.name, ".jsonl") && ParseChunkFilename(e.name) == Success(e.meta)
  {
    CollectMembers(names, Entry, e);
    if e in Kept(names) {
      var i :| 0 <= i < |names| && e in Entry(names[i]);
      EntryMembers(names[i], e);
    } else if e.name in names {
      var i :| 0 <= i < |names| && names[i] == e.name;
      EntryMembers(names[i], e);
    }
  }

  /** The one entry a name can contribute. */
  lemma EntryMembers(name: string, e: Listed)
    ensures e in Entry(name) <==>
      e.name == name && EndsWith(name, ".jsonl") && ParseChunkFilename(name) == Success(e.meta)
  {
  }

  /** What `Collect` gathers is what `f` gives for some name. */
  lemma {:induction false} CollectMembers(names: seq<string>, f: string -> seq<Listed>, e: Listed)
    ensures e in Collect(names, f) <==> exists i :: 0 <= i < |names| && e in f(names[i])
  {
    if |names| > 0 {
      var n := |names| - 1;
      var front := names[..n];
      CollectMembers(front, f, e);
      assert Collect(names, f) == Collect(front, f) + f(names[n]);
      if exists i :: 0 <= i < n && e in f(front[i]) {
        var i :| 0 <= i < n && e in f(front[i]);
        assert names[i] == front[i];
      }
      if exists i :: 0 <= i < |names| && e in f(names[i]) {
        var i :| 0 <= i < |names| && e in f(names[i]);
        if i < n {
          assert front[i] == names[i];
        }
      }
    }
  }

  /** Listing two batches of names lists each batch in turn. */
  lemma KeptAppend(a: seq<string>, b: seq<string>)
    ensures Kept(a + b) == Kept(a) + Kept(b)
  {
    CollectAppend(a, b, Entry);
  }

  lemma {:induction false} CollectAppend(a: seq<string>, b: seq<string>, f: string -> seq<Listed>)
    ensures Collect(a + b, f) == Collect(a, f) + Collect(b, f)
  {
    if |b| > 0 {
      var bf := b[..|b| - 1];
      CollectAppend(a, bf, f);
      var ab := a + b;
      assert ab[..|ab| - 1] == a + bf;
      assert ab[|ab| - 1] == b[|b| - 1];
    } else {
      assert a + b == a;
    }
  }
}

=== FILE: chunk_records.dfy ===
/** The record every chunking strategy produces: a `{start, end, chunk}`
    dictionary in the Python code. */
module ChunkRecords {
  import opened Strings

  /** `text` is the value stored under the `chunk` key. */
  datatype Chunk = Chunk(start: int, end: int, text: string)

  /** The chunk texts written one after the other. */
  function JoinedText(cs: seq<Chunk>): string
  {
    if |cs| == 0 then [] else cs[0].text + JoinedText(cs[1..])
  }

  /** `c` is the window of width `size` at `c.start`, its text cut at the
      end of `text` as Python slicing does, and it starts inside the text. */
  predicate IsWindowOf(text: string, size: int, c: Chunk)
  {
    0 < size && 0 <= c.start < |text| && c.end == c.start + size && c.text == Slice(text, c.start, c.end)
  }

  /** A non-empty chunk list begins at offset 0. */
  predicate StartsAtZero(cs: seq<Chunk>)
  {
    |cs| > 0 ==> cs[0].start == 0
  }

  /** Each chunk starts no earlier than the one before it. */
  predicate StartsAscending(cs: seq<Chunk>)
  {
    forall k :: 0 <= k < |cs| - 1 ==> cs[k].start <= cs[k + 1].start
  }

  /** Some chunk's `[start, end)` window contains position `p`. */
  predicate Covers(cs: seq<Chunk>, p: int)
  {
    exists k :: 0 <= k < |cs| && cs[k].start <= p < cs[k].end
  }

  /** Starts that advance by a fixed `step` from `first` are `first + k * step`. */
  lemma {:induction false} ArithmeticStarts(cs: seq<Chunk>, first: int, step: int)
    requires |cs| > 0 ==> cs[0].start == first
    requires forall k :: 0 <= k < |cs| - 1 ==> cs[k + 1].start == cs[k].start + step
    ensures forall k :: 0 <= k < |cs| ==> cs[k].start == first + k * step
    decreases |cs|
  {
    if |cs| > 1 {
      var tail := cs[1..];
      forall k | 0 <= k < |tail| - 1 ensures tail[k + 1].start == tail[k].start + step {
        assert tail[k + 1] == cs[k + 2] && tail[k] == cs[k + 1];
      }
      ArithmeticStarts(tail, first + step, step);
      forall k | 1 <= k < |cs| ensures cs[k].start == first + k * step {
        assert cs[k] == tail[k - 1];
        assert (k - 1) * step + step == k * step;
      }
    }
  }
}

=== FILE: dispatch.dfy ===
/** `chunk_text`: picks one of the four chunking strategies by name. */
module Dispatch {
  import opened Wrappers
  import opened ChunkRecords
  import opened Windows
  import opened Paragraphs
  import opened Sections

  /** The strategy names the dispatcher accepts. The type hint and docstring
      name the fourth one "markdown", but the code compares with "section". */
  predicate KnownMethod(m: string)
  {
    m == "simple" || m == "sliding" || m == "paragraph" || m == "section"
  }

  /** `chunk_text(text, method, size, step, level)`, with the same defaults.
      Only the section strategy reads `level`, and there it must not be
      negative. */
  function ChunkText(text: string, m: string, size: int := 2000, step: int := 1000, level: int := 2): (r: Result<seq<Chunk>>)
    requires m == "section" ==> level >= 0
    ensures r.Failure? <==>
              || !KnownMethod(m)
              || (m == "simple" && size <= 0)
              || (m == "sliding" && (size <= 0 || step <= 0))
    ensures !KnownMethod(m) ==> r == Failure(ValueError("Unknown method: " + m))
  {
    if m == "simple" then SimpleChunking(text, size)
    else if m == "sliding" then SlidingWindowChunking(text, size, step)
    else if m == "paragraph" then Success(ParagraphChunking(text))
    else if m == "section" then Success(MarkdownSectionChunking(text, level))
    else Failure(ValueError("Unknown method: " + m))
  }

  /** Each known name reaches its own strategy, with the parameters that
      strategy reads and no others. */
  lemma Routing(text: string, size: int, step: int, level: int)
    ensures ChunkText(text, "simple", size, step, level) == SimpleChunking(text, size)
    ensures ChunkText(text, "sliding", size, step, level) == SlidingWindowChunking(text, size, step)
    ensures ChunkText(text, "paragraph", size, step, level) == Success(ParagraphChunking(text))
    ensures level >= 0 ==>
      ChunkText(text, "section", size, step, level) == Success(MarkdownSectionChunking(text, level))
  {
  }

  /** The advertised name "markdown" is rejected like any unknown name. */
  lemma MarkdownIsRejected(text: string, size: int, step: int, level: int)
    ensures ChunkText(text, "markdown", size, step, level) == Failure(ValueError("Unknown method: markdown"))
  {
    assert !KnownMethod("markdown");
    assert "Unknown method: " + "markdown" == "Unknown method: markdown";
  }

  /** Whatever the strategy, a successful result starts at offset 0 and its
      starts never go backwards. */
  lemma ChunksInTextOrder(text: string, m: string, size: int, step: int, level: int)
    requires m == "section" ==> level >= 0
    ensures var r := ChunkText(text, m, size, step, level);
      r.Success? ==> StartsAtZero(r.value) && StartsAscending(r.value)
  {
    var r := ChunkText(text, m, size, step, level);
    if r.Success? {
      var cs := r.value;
      if m == "simple" || m == "sliding" {
        var d := if m == "simple" then size else step;
        assert forall k :: 0 <= k < |cs| ==> cs[k].start == k * d;
        forall k | 0 <= k < |cs| - 1
          ensures cs[k].start <= cs[k + 1].start
        {
          assert (k + 1) * d == k * d + d;
        }
      }
    }
  }
}

=== FILE: eval_logs.dfy ===
/** The log helpers of `project/eval.py`: `simplify_log_messages`, which
    drops bookkeeping fields from an agent's message log before it is shown
    to the judging model, and `extract_question_answer`, which finds the
    user's question and the model's final answer in such a log.

    A message is a dictionary with a `kind` and a list of `parts`; a part is a
    dictionary with a `part_kind` and kind-specific fields. */
module EvalLogs {
  import opened Wrappers
  import opened Json

  const Redacted := "RETURN_RESULTS_REDACTED"

  // ---------------------------------------------------- simplify messages

  /** The fields `simplify_log_messages` keeps of one part whose
      `part_kind` is `kind`. */
  function SimplifyFields(m: Record, kind: Value, keep: bool): Record
  {
    if kind == Str("user-prompt") then
      if keep then m else m - {"timestamp"}
    else if kind == Str("tool-call") then
      m - {"tool_call_id"}
    else if kind == Str("tool-return") then
      var kept := m - {"tool_call_id", "metadata"};
      var kept := if keep then kept else kept - {"timestamp"};
      kept["content" := Str(Redacted)]
    else if kind == Str("text") then
      m - {"id"}
    else
      m
  }

  /** What simplifying does to each key of a part: only the keys listed for
      its kind are removed, `timestamp` only when timestamps are not kept,
      and a tool return's content is replaced; nothing else changes. */
  lemma SimplifyFieldsEffects(m: Record, kind: Value, keep: bool)
    ensures var r := SimplifyFields(m, kind, keep);
      && (forall k :: k in r && k != "content" ==> k in m && r[k] == m[k])
      && ("content" in r && kind != Str("tool-return") ==> "content" in m && r["content"] == m["content"])
      && ("part_kind" in m ==> "part_kind" in r && r["part_kind"] == m["part_kind"])
      && ("timestamp" in r <==>
            "timestamp" in m && (keep || (kind != Str("user-prompt") && kind != Str("tool-return"))))
    ensures var r := SimplifyFields(m, kind, keep);
      && (kind == Str("tool-return") ==>
            && "content" in r && r["content"] == Str(Redacted)
            && "tool_call_id" !in r && "metadata" !in r
            && forall k :: k in m && k != "tool_call_id" && k != "metadata" && (keep || k != "timestamp") ==> k in r)
      && (kind == Str("tool-call") ==> r.Keys == m.Keys - {"tool_call_id"})
      && (kind == Str("text") ==> r.Keys == m.Keys - {"id"})
      && (kind == Str("user-prompt") ==> r.Keys == if keep then m.Keys else m.Keys - {"timestamp"})
      && (kind !in {Str("user-prompt"), Str("tool-call"), Str("tool-return"), Str("text")} ==> r == m)
  {
  }

  /** One pass of the inner loop: `part.copy()` and `part["part_kind"]`
      need a dictionary with that key. */
  function SimplifyPart(part: Value, keep: bool): (r: Result<Value>)
    ensures r.Success? <==> part.Obj? && "part_kind" in part.fields
    ensures r.Success? ==> r.value == Obj(SimplifyFields(part.fields, part.fields["part_kind"], keep))
  {
    match part
    case Obj(m) =>
      if "part_kind" in m then Success(Obj(SimplifyFields(m, m["part_kind"], keep)))
      else Failure(KeyError("part_kind"))
    case _ => Failure(TypeError("part is not a dictionary"))
  }

  /** The inner loop over a message's parts; the first bad part raises. */
  function SimplifyParts(parts: seq<Value>, keep: bool): (r: Result<seq<Value>>)
    ensures r.Success? <==> forall i :: 0 <= i < |parts| ==> SimplifyPart(parts[i], keep).Success?
    ensures r.Success? ==> |r.value| == |parts|
    ensures r.Success? ==> forall i :: 0 <= i < |parts| ==> r.value[i] == SimplifyPart(parts[i], keep).value
  {
    if |parts| == 0 then Success([])
    else
      match SimplifyPart(parts[0], keep)
      case Failure(e) => Failure(e)
      case Success(p) =>
        match SimplifyParts(parts[1..], keep)
        case Failure(e) => Failure(e)
        case Success(ps) => Success([p] + ps)
  }

  /** What a `for` loop over `v` hands to a body that starts with a
      dictionary method (`part.copy()`, `p.get(...)`): a list's items; nothing
      for an empty string or dictionary. A non-empty string or dictionary
      yields strings, on which that first call raises; any other value is
      not iterable. */
  function Elements(v: Value): (r: Result<seq<Value>>)
    ensures r.Success? <==> v.List? || v == Str([]) || v == Obj(map[])
    ensures v.List? ==> r == Success(v.items)
    ensures r.Success? && !v.List? ==> r.value == []
  {
    match v
    case List(items) => Success(items)
    case Str(s) => if |s| == 0 then Success([]) else Failure(TypeError("str element has no dictionary methods"))
    case Obj(f) => if |f| == 0 then Success([]) else Failure(TypeError("str element has no dictionary methods"))
    case _ => Failure(TypeError("not iterable"))
  }

  /** A message `simplify_log_messages` accepts: a dictionary with `kind`
      and `parts`, where `parts` is a list of dictionaries with a
      `part_kind`, or an empty string or dictionary. */
  predicate WellFormedMessage(msg: Value)
  {
    && msg.Obj?
    && "kind" in msg.fields
    && "parts" in msg.fields
    && Elements(msg.fields["parts"]).Success?
    && forall i :: 0 <= i < |Elements(msg.fields["parts"]).value| ==>
         var p := Elements(msg.fields["parts"]).value[i];
         p.Obj? && "part_kind" in p.fields
  }

  /** One pass of the outer loop: `message["parts"]` is read first, the
      parts are simplified, and only then is `message["kind"]` read. */
  function SimplifyMessage(msg: Value, keep: bool): (r: Result<Value>)
    ensures r.Success? <==> WellFormedMessage(msg)
    ensures r.Success? ==>
      && r.value.Obj? && r.value.fields.Keys == {"kind", "parts"}
      && r.value.fields["kind"] == msg.fields["kind"]
      && r.value.fields["parts"].List?
      && var ps := Elements(msg.fields["parts"]).value;
         var qs := r.value.fields["parts"].items;
         && |qs| == |ps|
         && forall i :: 0 <= i < |ps| ==> qs[i] == SimplifyPart(ps[i], keep).value
  {
    match msg
    case Obj(m) =>
      if "parts" !in m then Failure(KeyError("parts"))
      else (
        match Elements(m["parts"])
        case Failure(e) => Failure(e)
        case Success(items) =>
          match SimplifyParts(items, keep)
          case Failure(e) => Failure(e)
          case Success(ps) =>
            if "kind" !in m then Failure(KeyError("kind"))
            else Success(Obj(map["kind" := m["kind"], "parts" := List(ps)])))
    case _ => Failure(TypeError("message is not a dictionary"))
  }

  /** `simplify_log_messages(log_messages, keep_timestamps)`. */
  function SimplifyLogMessages(msgs: seq<Value>, keep: bool := false): (r: Result<seq<Value>>)
    ensures r.Success? <==> forall i :: 0 <= i < |msgs| ==> WellFormedMessage(msgs[i])
    ensures r.Success? ==> |r.value| == |msgs|
    ensures r.Success? ==> forall i :: 0 <= i < |msgs| ==> r.value[i] == SimplifyMessage(msgs[i], keep).value
  {
    if |msgs| == 0 then Success([])
    else
      match SimplifyMessage(msgs[0], keep)
      case Failure(e) => Failure(e)
      case Success(m) =>
        match SimplifyLogMessages(msgs[1..], keep)
        case Failure(e) => Failure(e)
        case Success(ms) => SimplifiedCons(msgs, keep, ms); Success([m] + ms)
  }

  /** The first message's simplification in front of the others'. */
  lemma SimplifiedCons(msgs: seq<Value>, keep: bool, ms: seq<Value>)
    requires |msgs| > 0 && SimplifyMessage(msgs[0], keep).Success?
    requires |ms| == |msgs| - 1
    requires forall i :: 0 <= i < |ms| ==>
      SimplifyMessage(msgs[1..][i], keep).Success? && ms[i] == SimplifyMessage(msgs[1..][i], keep).value
    ensures forall i :: 0 <= i < |msgs| ==>
      SimplifyMessage(msgs[i], keep).Success? && ([SimplifyMessage(msgs[0], keep).value] + ms)[i] == SimplifyMessage(msgs[i], keep).value
  {
    forall i | 1 <= i < |msgs|
      ensures SimplifyMessage(msgs[i], keep).Success?
      ensures ([SimplifyMessage(msgs[0], keep).value] + ms)[i] == SimplifyMessage(msgs[i], keep).value
    {
      assert msgs[1..][i - 1] == msgs[i];
    }
  }

  /** Simplifying a part's fields a second time changes nothing. */
  lemma SimplifyFieldsIdempotent(m: Record, kind: Value, keep: bool)
    ensures SimplifyFields(SimplifyFields(m, kind, keep), kind, keep) == SimplifyFields(m, kind, keep)
  {
    var once := SimplifyFields(m, kind, keep);
    var twice := SimplifyFields(once, kind, keep);
    assert twice.Keys == once.Keys;
  }

  /** A simplified log is already simple: simplifying it again gives it back. */
  lemma SimplifyIdempotent(msgs: seq<Value>, keep: bool)
    requires SimplifyLogMessages(msgs, keep).Success?
    ensures SimplifyLogMessages(SimplifyLogMessages(msgs, keep).value, keep)
         == SimplifyLogMessages(msgs, keep)
  {
    var out := SimplifyLogMessages(msgs, keep).value;
    forall i | 0 <= i < |out|
      ensures WellFormedMessage(out[i]) && SimplifyMessage(out[i], keep) == Success(out[i])
    {
      SimplifyMessageIdempotent(msgs[i], keep);
    }
    SimplifyFixedPoint(out, keep);
  }

  lemma SimplifyMessageIdempotent(msg: Value, keep: bool)
    requires WellFormedMessage(msg)
    ensures var once := SimplifyMessage(msg, keep).value;
      WellFormedMessage(once) && SimplifyMessage(once, keep) == Success(once)
  {
    var once := SimplifyMessage(msg, keep).value;
    var ps := Elements(msg.fields["parts"]).value;
    var qs := once.fields["parts"].items;
    forall i | 0 <= i < |qs|
      ensures qs[i].Obj? && "part_kind" in qs[i].fields
      ensures SimplifyPart(qs[i], keep) == Success(qs[i])
    {
      var f := ps[i].fields;
      SimplifyFieldsIdempotent(f, f["part_kind"], keep);
    }
    var again := SimplifyParts(qs, keep).value;
    assert again == qs;
  }

  /** A log whose every message is its own simplification is left as it is. */
  lemma {:induction false} SimplifyFixedPoint(msgs: seq<Value>, keep: bool)
    requires forall i :: 0 <= i < |msgs| ==>
      WellFormedMessage(msgs[i]) && SimplifyMessage(msgs[i], keep) == Success(msgs[i])
    ensures SimplifyLogMessages(msgs, keep) == Success(msgs)
  {
    if |msgs| > 0 {
      SimplifyFixedPoint(msgs[1..], keep);
      assert [msgs[0]] + msgs[1..] == msgs;
    }
  }

  // ----------------------------------------------- question and answer

  /** `m.get("parts", [])`, which the loop then iterates. */
  function PartsOrEmpty(m: Value): Result<seq<Value>>
  {
    match m
    case Obj(f) =>
      if "parts" !in f then Success([])
      else Elements(f["parts"])
    case _ => Failure(TypeError("message is not a dictionary"))
  }

  /** The inner loop: the `content` of the first part whose `part_kind` is
      `kind`, `None` inside `Some` when that part has no content, and `None`
      when no part has that kind. */
  function FirstOfKind(parts: seq<Value>, kind: string): (r: Result<Option<Value>>)
    ensures r.Success? && r.value.Some? ==>
      exists i :: 0 <= i < |parts| && parts[i].Obj? && Get(parts[i].fields, "part_kind") == Str(kind)
        && r.value.value == Get(parts[i].fields, "content")
  {
    if |parts| == 0 then Success(None)
    else
      match parts[0]
      case Obj(f) =>
        if Get(f, "part_kind") == Str(kind) then Success(Some(Get(f, "content")))
        else FirstOfKind(parts[1..], kind)
      case _ => Failure(TypeError("part is not a dictionary"))
  }

  /** The outer loop: each message with a part of the kind overwrites the
      found value with its first such part's content, and the loop stops at
      the first truthy one. `acc` is the value found so far, always falsy. */
  function Scan(msgs: seq<Value>, kind: string, acc: Value): (r: Result<Value>)
    ensures (forall j :: 0 <= j < |msgs| ==> Readable(msgs[j])) ==> r.Success?
    ensures (forall j :: 0 <= j < |msgs| ==> Readable(msgs[j])) && r.Success? && !Truthy(r.value) ==>
      forall j :: 0 <= j < |msgs| ==> !TruthyHit(msgs[j], kind)
  {
    if |msgs| == 0 then Success(acc)
    else
      HitFound(msgs[0], kind);
      TailShift(msgs);
      match PartsOrEmpty(msgs[0])
      case Failure(e) => Failure(e)
      case Success(parts) =>
        match FirstOfKind(parts, kind)
        case Failure(e) => Failure(e)
        case Success(None) => Scan(msgs[1..], kind, acc)
        case Success(Some(v)) => if Truthy(v) then Success(v) else Scan(msgs[1..], kind, v)
  }

  /** On a readable message the inner loop completes with what `Hit` finds. */
  lemma HitFound(m: Value, kind: string)
    ensures Readable(m) ==> FirstOfKind(PartsOrEmpty(m).value, kind) == Success(Hit(m, kind))
  {
  }

  /** Message `j` of a log is message `j - 1` of its tail. */
  lemma TailShift(msgs: seq<Value>)
    requires |msgs| > 0
    ensures forall j :: 1 <= j < |msgs| ==> msgs[1..][j - 1] == msgs[j]
  {
  }

  function Reverse(msgs: seq<Value>): (r: seq<Value>)
    ensures |r| == |msgs|
    ensures forall i :: 0 <= i < |msgs| ==> r[i] == msgs[|msgs| - 1 - i]
  {
    seq(|msgs|, i requires 0 <= i < |msgs| => msgs[|msgs| - 1 - i])
  }

  /** The first loop of `extract_question_answer`. On a readable log it
      never fails, and it ends with a falsy question only when no message's
      first user prompt has truthy content. */
  function Question(msgs: seq<Value>): (r: Result<Value>)
    ensures (forall j :: 0 <= j < |msgs| ==> Readable(msgs[j])) ==> r.Success?
    ensures (forall j :: 0 <= j < |msgs| ==> Readable(msgs[j])) && r.Success? && !Truthy(r.value) ==>
      forall j :: 0 <= j < |msgs| ==> !TruthyHit(msgs[j], "user-prompt")
  {
    Scan(msgs, "user-prompt", Null)
  }

  /** The second loop of `extract_question_answer`, over `reversed(messages)`.
      On a readable log it never fails, and it ends with a falsy answer only
      when no message's first text part has truthy content. */
  function Answer(msgs: seq<Value>): (r: Result<Value>)
    ensures (forall j :: 0 <= j < |msgs| ==> Readable(msgs[j])) ==> r.Success?
    ensures (forall j :: 0 <= j < |msgs| ==> Readable(msgs[j])) && r.Success? && !Truthy(r.value) ==>
      forall j :: 0 <= j < |msgs| ==> !TruthyHit(msgs[j], "text")
  {
    ReversedLog(msgs);
    Scan(Reverse(msgs), "text", Null)
  }

  /** Each message of the log sits in the reversed log, at the mirrored
      position. */
  lemma ReversedLog(msgs: seq<Value>)
    ensures forall j :: 0 <= j < |msgs| ==> Reverse(msgs)[|msgs| - 1 - j] == msgs[j]
  {
  }

  /** `extract_question_answer(messages)`: the question loop runs to its end
      before the answer loop starts, so an error in either is raised. */
  function ExtractQuestionAnswer(msgs: seq<Value>): (r: Result<(Value, Value)>)
    ensures r.Success? <==> Question(msgs).Success? && Answer(msgs).Success?
    ensures r.Success? ==> Question(msgs) == Success(r.value.0) && Answer(msgs) == Success(r.value.1)
  {
    Pair(Question(msgs), Answer(msgs))
  }

  /** Neither loop fails on a readable log. */
  lemma ReadableLogsExtract(msgs: seq<Value>)
    requires forall j :: 0 <= j < |msgs| ==> Readable(msgs[j])
    ensures ExtractQuestionAnswer(msgs).Success?
  {
    ScanSucceeds(msgs, "user-prompt", Null);
    forall j | 0 <= j < |msgs| ensures Readable(Reverse(msgs)[j]) {
      assert Reverse(msgs)[j] == msgs[|msgs| - 1 - j];
    }
    ScanSucceeds(Reverse(msgs), "text", Null);
  }

  function Pair(q: Result<Value>, a: Result<Value>): (r: Result<(Value, Value)>)
  {
    match q
    case Failure(e) => Failure(e)
    case Success(qv) =>
      match a
      case Failure(e) => Failure(e)
      case Success(av) => Success((qv, av))
  }

  /** The scans never fail on a readable log. */
  lemma {:induction false} ScanSucceeds(msgs: seq<Value>, kind: string, acc: Value)
    requires forall j :: 0 <= j < |msgs| ==> Readable(msgs[j])
    ensures Scan(msgs, kind, acc).Success?
  {
    if |msgs| > 0 {
      var h := Hit(msgs[0], kind);
      ScanSucceeds(msgs[1..], kind, if h.Some? then h.value else acc);
      ScanSucceeds(msgs[1..], kind, acc);
    }
  }

  /** A message the scans can read: a dictionary whose `parts`, if present,
      is a list of dictionaries or an empty string or dictionary. */
  predicate Readable(m: Value)
  {
    && PartsOrEmpty(m).Success?
    && forall i :: 0 <= i < |PartsOrEmpty(m).value| ==> PartsOrEmpty(m).value[i].Obj?
  }

  /** What the inner loop finds in a readable message. */
  function Hit(m: Value, kind: string): Option<Value>
    requires Readable(m)
  {
    PartsFind(PartsOrEmpty(m).value, kind)
  }

  /** `FirstOfKind` on parts that are all dictionaries, which never fails. */
  function PartsFind(parts: seq<Value>, kind: string): (r: Option<Value>)
    requires forall i :: 0 <= i < |parts| ==> parts[i].Obj?
    ensures FirstOfKind(parts, kind) == Success(r)
    ensures r.None? <==> forall i :: 0 <= i < |parts| ==> Get(parts[i].fields, "part_kind") != Str(kind)
  {
    if |parts| == 0 then None
    else if Get(parts[0].fields, "part_kind") == Str(kind) then Some(Get(parts[0].fields, "content"))
    else PartsFind(parts[1..], kind)
  }

  /** Message `m` has a part of the kind and its first such part has truthy
      content. */
  predicate TruthyHit(m: Value, kind: string)
    requires Readable(m)
  {
    Hit(m, kind).Some? && Truthy(Hit(m, kind).value)
  }

  /** On a readable log the scan never fails, and with no part of the kind
      anywhere it leaves the found value as it was (`None` at the start). */
  lemma {:induction false} ScanNoHit(msgs: seq<Value>, kind: string, acc: Value)
    requires forall i :: 0 <= i < |msgs| ==> Readable(msgs[i]) && Hit(msgs[i], kind).None?
    ensures Scan(msgs, kind, acc) == Success(acc)
  {
    if |msgs| > 0 {
      assert Hit(msgs[0], kind).None?;
      ScanNoHit(msgs[1..], kind, acc);
    }
  }

  /** The scan stops at the first message whose first part of the kind has
      truthy content. */
  lemma {:induction false} ScanFirstTruthy(msgs: seq<Value>, kind: string, acc: Value, i: nat)
    requires forall j :: 0 <= j < |msgs| ==> Readable(msgs[j])
    requires i < |msgs| && TruthyHit(msgs[i], kind)
    requires forall j :: 0 <= j < i ==> !TruthyHit(msgs[j], kind)
    ensures Scan(msgs, kind, acc) == Success(Hit(msgs[i], kind).value)
  {
    var h := Hit(msgs[0], kind);
    if i > 0 {
      assert !TruthyHit(msgs[0], kind);
      var rest := msgs[1..];
      assert rest[i - 1] == msgs[i];
      forall j | 0 <= j < i - 1
        ensures !TruthyHit(rest[j], kind)
      {
        assert rest[j] == msgs[j + 1];
      }
      ScanFirstTruthy(rest, kind, if h.Some? then h.value else acc, i - 1);
    }
  }

  /** With no truthy content anywhere, the scan ends with the content of the
      last message that has a part of the kind. */
  lemma {:induction false} ScanLastFalsy(msgs: seq<Value>, kind: string, acc: Value, i: nat)
    requires forall j :: 0 <= j < |msgs| ==> Readable(msgs[j]) && !TruthyHit(msgs[j], kind)
    requires i < |msgs| && Hit(msgs[i], kind).Some?
    requires forall j :: i < j < |msgs| ==> Hit(msgs[j], kind).None?
    ensures Scan(msgs, kind, acc) == Success(Hit(msgs[i], kind).value)
  {
    var h := Hit(msgs[0], kind);
    assert !TruthyHit(msgs[0], kind);
    var rest := msgs[1..];
    if i == 0 {
      forall j | 0 <= j < |rest|
        ensures Readable(rest[j]) && Hit(rest[j], kind).None?
      {
        assert rest[j] == msgs[j + 1];
      }
      ScanNoHit(rest, kind, h.value);
    } else {
      forall j | 0 <= j < |rest|
        ensures Readable(rest[j]) && !TruthyHit(rest[j], kind)
        ensures i - 1 < j ==> Hit(rest[j], kind).None?
      {
        assert rest[j] == msgs[j + 1];
      }
      assert rest[i - 1] == msgs[i];
      ScanLastFalsy(rest, kind, if h.Some? then h.value else acc, i - 1);
    }
  }

  /** The question: `None` when no part is a user prompt; otherwise the first
      user prompt of the first message whose first user prompt has truthy
      content; failing that, the (falsy) first user prompt of the last
      message that has one. */
  lemma QuestionIs(msgs: seq<Value>)
    requires forall j :: 0 <= j < |msgs| ==> Readable(msgs[j])
    ensures (forall j :: 0 <= j < |msgs| ==> Hit(msgs[j], "user-prompt").None?) ==>
      Question(msgs) == Success(Null)
    ensures forall i :: (0 <= i < |msgs| && TruthyHit(msgs[i], "user-prompt")
        && (forall j :: 0 <= j < i ==> !TruthyHit(msgs[j], "user-prompt"))) ==>
      Question(msgs) == Success(Hit(msgs[i], "user-prompt").value)
    ensures forall i :: (0 <= i < |msgs| && Hit(msgs[i], "user-prompt").Some?
        && (forall j :: 0 <= j < |msgs| ==> !TruthyHit(msgs[j], "user-prompt"))
        && (forall j :: i < j < |msgs| ==> Hit(msgs[j], "user-prompt").None?)) ==>
      Question(msgs) == Success(Hit(msgs[i], "user-prompt").value)
  {
    if forall j :: 0 <= j < |msgs| ==> Hit(msgs[j], "user-prompt").None? {
      ScanNoHit(msgs, "user-prompt", Null);
    }
    forall i | 0 <= i < |msgs| && TruthyHit(msgs[i], "user-prompt")
        && (forall j :: 0 <= j < i ==> !TruthyHit(msgs[j], "user-prompt"))
      ensures Question(msgs) == Success(Hit(msgs[i], "user-prompt").value)
    {
      ScanFirstTruthy(msgs, "user-prompt", Null, i);
    }
    forall i | 0 <= i < |msgs| && Hit(msgs[i], "user-prompt").Some?
        && (forall j :: 0 <= j < |msgs| ==> !TruthyHit(msgs[j], "user-prompt"))
        && (forall j :: i < j < |msgs| ==> Hit(msgs[j], "user-prompt").None?)
      ensures Question(msgs) == Success(Hit(msgs[i], "user-prompt").value)
    {
      ScanLastFalsy(msgs, "user-prompt", Null, i);
    }
  }

  /** The answer: `None` when no part is text; otherwise the first text part
      of the last message whose first text part has truthy content; failing
      that, the (falsy) first text part of the earliest message that has one. */
  lemma AnswerIs(msgs: seq<Value>)
    requires forall j :: 0 <= j < |msgs| ==> Readable(msgs[j])
    ensures (forall j :: 0 <= j < |msgs| ==> Hit(msgs[j], "text").None?) ==>
      Answer(msgs) == Success(Null)
    ensures forall i :: (0 <= i < |msgs| && TruthyHit(msgs[i], "text")
        && (forall j :: i < j < |msgs| ==> !TruthyHit(msgs[j], "text"))) ==>
      Answer(msgs) == Success(Hit(msgs[i], "text").value)
    ensures forall i :: (0 <= i < |msgs| && Hit(msgs[i], "text").Some?
        && (forall j :: 0 <= j < |msgs| ==> !TruthyHit(msgs[j], "text"))
        && (forall j :: 0 <= j < i ==> Hit(msgs[j], "text").None?)) ==>
      Answer(msgs) == Success(Hit(msgs[i], "text").value)
  {
    if forall j :: 0 <= j < |msgs| ==> Hit(msgs[j], "text").None? {
      AnswerNoText(msgs);
    }
    forall i | (0 <= i < |msgs| && TruthyHit(msgs[i], "text")
        && (forall j :: i < j < |msgs| ==> !TruthyHit(msgs[j], "text")))
      ensures Answer(msgs) == Success(Hit(msgs[i], "text").value)
    {
      AnswerLastTruthy(msgs, i);
    }
    forall i | (0 <= i < |msgs| && Hit(msgs[i], "text").Some?
        && (forall j :: 0 <= j < |msgs| ==> !TruthyHit(msgs[j], "text"))
        && (forall j :: 0 <= j < i ==> Hit(msgs[j], "text").None?))
      ensures Answer(msgs) == Success(Hit(msgs[i], "text").value)
    {
      AnswerFirstFalsy(msgs, i);
    }
  }

  lemma AnswerNoText(msgs: seq<Value>)
    requires forall j :: 0 <= j < |msgs| ==> Readable(msgs[j]) && Hit(msgs[j], "text").None?
    ensures Answer(msgs) == Success(Null)
  {
    var rev := Reverse(msgs);
    forall j | 0 <= j < |rev| ensures Readable(rev[j]) && Hit(rev[j], "text").None? {
      assert rev[j] == msgs[|msgs| - 1 - j];
    }
    ScanNoHit(rev, "text", Null);
  }

  lemma AnswerLastTruthy(msgs: seq<Value>, i: nat)
    requires forall j :: 0 <= j < |msgs| ==> Readable(msgs[j])
    requires i < |msgs| && TruthyHit(msgs[i], "text")
    requires forall j :: i < j < |msgs| ==> !TruthyHit(msgs[j], "text")
    ensures Answer(msgs) == Success(Hit(msgs[i], "text").value)
  {
    var rev := Reverse(msgs);
    var n := |msgs|;
    var r := n - 1 - i;
    forall j | 0 <= j < n ensures Readable(rev[j]) {
      assert rev[j] == msgs[n - 1 - j];
    }
    assert rev[r] == msgs[i];
    forall j | 0 <= j < r ensures !TruthyHit(rev[j], "text") {
      assert rev[j] == msgs[n - 1 - j];
    }
    ScanFirstTruthy(rev, "text", Null, r);
  }

  lemma AnswerFirstFalsy(msgs: seq<Value>, i: nat)
    requires forall j :: 0 <= j < |msgs| ==> Readable(msgs[j]) && !TruthyHit(msgs[j], "text")
    requires i < |msgs| && Hit(msgs[i], "text").Some?
    requires forall j :: 0 <= j < i ==> Hit(msgs[j], "text").None?
    ensures Answer(msgs) == Success(Hit(msgs[i], "text").value)
  {
    var rev := Reverse(msgs);
    var n := |msgs|;
    var r := n - 1 - i;
    assert rev[r] == msgs[i];
    forall j | 0 <= j < n
      ensures Readable(rev[j]) && !TruthyHit(rev[j], "text")
      ensures r < j ==> Hit(rev[j], "text").None?
    {
      assert rev[j] == msgs[n - 1 - j];
    }
    ScanLastFalsy(rev, "text", Null, r);
  }
}

=== FILE: hybrid.dfy ===
/** The merge step of `hybrid_search` in `search.py`: lexical results, then
    vector results, keeping the first record for each `(filename, start)`
    key, cut to `top_k`. The two searches themselves only produce the input
    sequences. */
module Hybrid {
  import opened Wrappers
  import opened Json

  /** `(r.get("filename"), r.get("start"))`: a missing field reads as `None`. */
  function Key(r: Record): (Value, Value)
  {
    (Get(r, "filename"), Get(r, "start"))
  }

  /** No record before position `i` has the key of record `i`. */
  predicate IsFirstOfKey(s: seq<Record>, i: nat)
    requires i < |s|
  {
    forall j :: 0 <= j < i ==> Key(s[j]) != Key(s[i])
  }

  /** `r` is a record of `all` at a position holding the first record of
      its key. */
  predicate IsFirstOccurrence(all: seq<Record>, r: Record)
  {
    exists i :: 0 <= i < |all| && r == all[i] && IsFirstOfKey(all, i)
  }

  predicate Ascending(idx: seq<nat>)
  {
    forall a, b :: 0 <= a < b < |idx| ==> idx[a] < idx[b]
  }

  /** Reference definition: the positions below `n` that hold the first
      record of their key, in increasing order. */
  function FirstIndices(s: seq<Record>, n: nat): (idx: seq<nat>)
    requires n <= |s|
    ensures Ascending(idx)
    ensures forall k :: 0 <= k < |idx| ==> idx[k] < n && IsFirstOfKey(s, idx[k])
    ensures forall i :: 0 <= i < n && IsFirstOfKey(s, i) ==> i in idx
  {
    if n == 0 then []
    else
      var prev := FirstIndices(s, n - 1);
      if IsFirstOfKey(s, n - 1) then prev + [n - 1] else prev
  }

  /** The records at the positions `idx`, in that order. */
  function Pick(s: seq<Record>, idx: seq<nat>): (r: seq<Record>)
    requires forall k :: 0 <= k < |idx| ==> idx[k] < |s|
    ensures |r| == |idx|
    ensures forall k :: 0 <= k < |r| ==> r[k] == s[idx[k]]
  {
    seq(|idx|, k requires 0 <= k < |idx| => s[idx[k]])
  }

  /** The keys of the records before position `n`. */
  function KeysBefore(s: seq<Record>, n: nat): set<(Value, Value)>
    requires n <= |s|
  {
    set j | 0 <= j < n :: Key(s[j])
  }

  /** The merged list before truncation, by the reference definition. */
  function Deduplicated(all: seq<Record>): seq<Record>
  {
    Pick(all, FirstIndices(all, |all|))
  }

  /** The loop of `hybrid_search` over `text_results + vector_results`, with
      its `seen` set, followed by `merged[:top_k]`. */
  method HybridMerge(textResults: seq<Record>, vectorResults: seq<Record>, topK: nat := 5)
    returns (merged: seq<Record>)
    ensures var d := Deduplicated(textResults + vectorResults);
      merged == d[..Min(topK, |d|)]
  {
    var all := textResults + vectorResults;
    var seen: set<(Value, Value)> := {};
    var acc: seq<Record> := [];
    var i := 0;
    MergeStart(all);
    while i < |all|
      invariant 0 <= i <= |all|
      invariant seen == KeysBefore(all, i)
      invariant acc == Pick(all, FirstIndices(all, i))
    {
      var ident := Key(all[i]);
      MergeTurn(all, i, seen, acc);
      if ident !in seen {
        seen := seen + {ident};
        acc := acc + [all[i]];
      }
      i := i + 1;
    }
    merged := acc[..Min(topK, |acc|)];
  }

  /** Before the first turn nothing is seen and nothing is kept. */
  lemma MergeStart(s: seq<Record>)
    ensures KeysBefore(s, 0) == {} && Pick(s, FirstIndices(s, 0)) == []
  {
  }

  /** The loop state after turn `i`, from the state before it. */
  lemma MergeTurn(s: seq<Record>, i: nat, seen: set<(Value, Value)>, acc: seq<Record>)
    requires i < |s|
    requires seen == KeysBefore(s, i) && acc == Pick(s, FirstIndices(s, i))
    ensures Key(s[i]) in seen ==>
      seen == KeysBefore(s, i + 1) && acc == Pick(s, FirstIndices(s, i + 1))
    ensures Key(s[i]) !in seen ==>
      seen + {Key(s[i])} == KeysBefore(s, i + 1) && acc + [s[i]] == Pick(s, FirstIndices(s, i + 1))
  {
    MergeStep(s, i);
  }

  /** One turn of the merge loop: record `i` joins the result exactly when
      its key is not among the keys seen so far, and its key is then seen. */
  lemma MergeStep(s: seq<Record>, i: nat)
    requires i < |s|
    ensures KeysBefore(s, i + 1) == KeysBefore(s, i) + {Key(s[i])}
    ensures Pick(s, FirstIndices(s, i + 1)) ==
      if Key(s[i]) in KeysBefore(s, i) then Pick(s, FirstIndices(s, i))
      else Pick(s, FirstIndices(s, i)) + [s[i]]
  {
    assert KeysBefore(s, i + 1) == KeysBefore(s, i) + {Key(s[i])};
    var prev := FirstIndices(s, i);
    if Key(s[i]) in KeysBefore(s, i) {
      var j :| 0 <= j < i && Key(s[j]) == Key(s[i]);
      assert !IsFirstOfKey(s, i);
    } else {
      assert IsFirstOfKey(s, i);
      assert FirstIndices(s, i + 1) == prev + [i];
      assert Pick(s, prev + [i]) == Pick(s, prev) + [s[i]];
    }
  }

  /** At most `top_k` results, no two with the same key, each one a record
      of the input whose key had not appeared earlier. */
  lemma MergedIsFirstOccurrences(all: seq<Record>, topK: nat)
    ensures var r := Deduplicated(all)[..Min(topK, |Deduplicated(all)|)];
      && |r| <= topK
      && (forall a, b :: 0 <= a < b < |r| ==> Key(r[a]) != Key(r[b]))
      && (forall k :: 0 <= k < |r| ==> IsFirstOccurrence(all, r[k]))
  {
    var d := Deduplicated(all);
    var r := d[..Min(topK, |d|)];
    DistinctKeys(all);
    KeptFromFirstOccurrences(all);
    assert forall k :: 0 <= k < |r| ==> r[k] == d[k];
  }

  /** No two records of the untruncated merge share a key. */
  lemma DistinctKeys(all: seq<Record>)
    ensures var d := Deduplicated(all);
      forall a, b :: 0 <= a < b < |d| ==> Key(d[a]) != Key(d[b])
  {
    var idx := FirstIndices(all, |all|);
    var d := Deduplicated(all);
    forall a, b | 0 <= a < b < |d|
      ensures Key(d[a]) != Key(d[b])
    {
      assert d[a] == all[idx[a]] && d[b] == all[idx[b]];
      assert idx[a] < idx[b] && IsFirstOfKey(all, idx[b]);
    }
  }

  /** Each record of the untruncated merge is the first of its key in the
      input. */
  lemma KeptFromFirstOccurrences(all: seq<Record>)
    ensures var d := Deduplicated(all);
      forall k :: 0 <= k < |d| ==> IsFirstOccurrence(all, d[k])
  {
    var idx := FirstIndices(all, |all|);
    var d := Deduplicated(all);
    forall k | 0 <= k < |d|
      ensures IsFirstOccurrence(all, d[k])
    {
      var i := idx[k];
      assert d[k] == all[i] && IsFirstOfKey(all, i);
    }
  }

  /** Every key of the input is represented in the untruncated merge. */
  lemma EveryKeyKept(all: seq<Record>, i: nat)
    requires i < |all|
    ensures exists k :: 0 <= k < |Deduplicated(all)| && Key(Deduplicated(all)[k]) == Key(all[i])
  {
    var f := FirstOf(all, i);
    var idx := FirstIndices(all, |all|);
    assert f in idx;
    var k :| 0 <= k < |idx| && idx[k] == f;
    assert Deduplicated(all)[k] == all[f];
  }

  /** The earliest position holding the key of position `i`. */
  function FirstOf(s: seq<Record>, i: nat): (f: nat)
    requires i < |s|
    ensures f <= i && Key(s[f]) == Key(s[i]) && IsFirstOfKey(s, f)
  {
    FirstFrom(s, i, 0)
  }

  /** The first position from `j` on holding the key of position `i`, when
      none before `j` does. */
  function FirstFrom(s: seq<Record>, i: nat, j: nat): (f: nat)
    requires j <= i < |s|
    requires forall x :: 0 <= x < j ==> Key(s[x]) != Key(s[i])
    decreases i - j
    ensures j <= f <= i && Key(s[f]) == Key(s[i]) && IsFirstOfKey(s, f)
  {
    if Key(s[j]) == Key(s[i]) then j else FirstFrom(s, i, j + 1)
  }

  /** Only the first `m` records decide which of them are kept. */
  lemma {:induction false} FirstIndicesPrefix(s: seq<Record>, t: seq<Record>, m: nat)
    requires m <= |s| && m <= |t| && s[..m] == t[..m]
    ensures FirstIndices(s, m) == FirstIndices(t, m)
  {
    if m > 0 {
      SamePrefixShorter(s, t, m);
      FirstIndicesPrefix(s, t, m - 1);
      SameFirstOfKey(s, t, m);
    }
  }

  lemma SamePrefixShorter(s: seq<Record>, t: seq<Record>, m: nat)
    requires 0 < m <= |s| && m <= |t| && s[..m] == t[..m]
    ensures s[..m - 1] == t[..m - 1]
  {
    assert s[..m - 1] == s[..m][..m - 1];
    assert t[..m - 1] == t[..m][..m - 1];
  }

  /** Whether record `m - 1` is the first of its key depends only on the
      first `m` records. */
  lemma SameFirstOfKey(s: seq<Record>, t: seq<Record>, m: nat)
    requires 0 < m <= |s| && m <= |t| && s[..m] == t[..m]
    ensures IsFirstOfKey(s, m - 1) == IsFirstOfKey(t, m - 1)
  {
    forall j | 0 <= j < m
      ensures s[j] == t[j]
    {
      assert s[j] == s[..m][j] && t[j] == t[..m][j];
    }
  }

  /** The kept positions below `m` are a prefix of the kept positions below
      any larger bound. */
  lemma {:induction false} FirstIndicesGrow(s: seq<Record>, m: nat, n: nat)
    requires m <= n <= |s|
    decreases n - m
    ensures FirstIndices(s, m) <= FirstIndices(s, n)
  {
    if m < n {
      FirstIndicesGrow(s, m, n - 1);
    }
  }

  /** Lexical results take priority: the merge begins with the text results'
      own deduplication, so on a shared key the text result is the one kept
      and every vector result comes after all distinct text results. */
  lemma TextResultsFirst(textResults: seq<Record>, vectorResults: seq<Record>)
    ensures Deduplicated(textResults) <= Deduplicated(textResults + vectorResults)
  {
    var all := textResults + vectorResults;
    var n := |textResults|;
    assert all[..n] == textResults[..n];
    FirstIndicesPrefix(all, textResults, n);
    FirstIndicesGrow(all, n, |all|);
    var small := FirstIndices(textResults, n);
    var big := FirstIndices(all, |all|);
    forall k | 0 <= k < |small|
      ensures Deduplicated(textResults)[k] == Deduplicated(all)[k]
    {
      assert small[k] == big[k];
      assert all[small[k]] == textResults[small[k]];
    }
  }

  /** A vector result survives only when no text result shares its key. */
  lemma VectorKeptOnlyIfNew(textResults: seq<Record>, vectorResults: seq<Record>, j: nat)
    requires j < |vectorResults|
    requires exists i :: 0 <= i < |textResults| && Key(textResults[i]) == Key(vectorResults[j])
    ensures |textResults| + j !in FirstIndices(textResults + vectorResults, |textResults + vectorResults|)
  {
    var all := textResults + vectorResults;
    var i :| 0 <= i < |textResults| && Key(textResults[i]) == Key(vectorResults[j]);
    assert all[i] == textResults[i] && all[|textResults| + j] == vectorResults[j];
    assert !IsFirstOfKey(all, |textResults| + j);
  }

  /** Records that lack both `filename` and `start` share the key
      `(None, None)`, so at most one of them survives the merge. */
  lemma MissingKeysCollapse(all: seq<Record>)
    ensures var d := Deduplicated(all);
      forall a, b :: 0 <= a < b < |d| ==>
        !("filename" !in d[a] && "start" !in d[a] && "filename" !in d[b] && "start" !in d[b])
  {
    var d := Deduplicated(all);
    MergedIsFirstOccurrences(all, |d|);
    assert d[..Min(|d|, |d|)] == d;
  }
}

=== FILE: json.dfy ===
/** Parsed JSON values: the dictionaries and lists that the log and search
    helpers take apart. */
module Json {
  import opened Wrappers

  datatype Value =
    | Null
    | Bool(b: bool)
    | Int(i: int)
    | Str(s: string)
    | List(items: seq<Value>)
    | Obj(fields: map<string, Value>)

  /** A dictionary, as the search libraries return them. */
  type Record = map<string, Value>

  /** `d.get(key)`: the stored value, or `None` when the key is missing. */
  function Get(d: Record, key: string): (v: Value)
    ensures key !in d ==> v == Null
    ensures key in d ==> v == d[key]
  {
    if key in d then d[key] else Null
  }

  /** Python truthiness: `None`, `False`, `0` and empty strings, lists and
      dictionaries are false. */
  predicate Truthy(v: Value)
  {
    match v
    case Null => false
    case Bool(b) => b
    case Int(i) => i != 0
    case Str(s) => |s| > 0
    case List(items) => |items| > 0
    case Obj(fields) => |fields| > 0
  }
}

=== FILE: paragraphs.dfy ===
/** `paragraph_chunking` of `chunks.py`: the stripped text is split by the
    regular expression `\n\s*\n`, every piece is stripped again, empty
    pieces are skipped, and offsets are rebuilt by adding a fixed two
    characters between paragraphs.

    The regular expression is modelled by its matching semantics: a match
    at position `p` runs from a newline at `p` to the LAST newline reachable
    from it through whitespace (the greedy `\s*` backtracks only as far as
    it must), and the split uses the leftmost match each time.
 */
module Paragraphs {
  import opened Wrappers
  import opened Strings
  import opened ChunkRecords

  // ------------------------------------------------- the separator `\n\s*\n`

  /** `s[p..m+1]` is a match of `\n\s*\n`. */
  predicate BlankBetween(s: string, p: int, m: int)
  {
    0 <= p < m < |s| && s[p] == '\n' && s[m] == '\n'
    && forall k :: p < k < m ==> IsSpace(s[k])
  }

  /** End of the run of whitespace that starts at `j`. */
  function SpaceRunEnd(s: string, j: nat): (q: nat)
    requires j <= |s|
    decreases |s| - j
    ensures j <= q <= |s|
    ensures forall k :: j <= k < q ==> IsSpace(s[k])
    ensures q < |s| ==> !IsSpace(s[q])
  {
    if j < |s| && IsSpace(s[j]) then SpaceRunEnd(s, j + 1) else j
  }

  /** The last newline in `s[a..b]`. */
  function LastNewline(s: string, a: nat, b: nat): (r: Option<nat>)
    requires a <= b <= |s|
    decreases b - a
    ensures r.None? ==> forall k :: a <= k < b ==> s[k] != '\n'
    ensures r.Some? ==> a <= r.value < b && s[r.value] == '\n'
    ensures r.Some? ==> forall k :: r.value < k < b ==> s[k] != '\n'
  {
    if a == b then None
    else if s[b - 1] == '\n' then Some(b - 1)
    else LastNewline(s, a, b - 1)
  }

  /** The end of the match of `\n\s*\n` at position `p`, if there is one:
      `\s*` first takes the whole whitespace run and then gives characters
      back until a newline follows. */
  function SeparatorAt(s: string, p: nat): (r: Option<nat>)
    requires p < |s|
    ensures r.Some? ==> BlankBetween(s, p, r.value - 1)
    ensures r.Some? ==> forall m :: BlankBetween(s, p, m) ==> m <= r.value - 1
    ensures r.None? ==> forall m :: !BlankBetween(s, p, m)
  {
    if s[p] != '\n' then None
    else
      match LastNewline(s, p + 1, SpaceRunEnd(s, p + 1))
      case None => None
      case Some(m) => Some(m + 1)
  }

  /** The leftmost match at or after `p`, as `(start, end)`. */
  function FirstSeparator(s: string, p: nat): (r: Option<(nat, nat)>)
    decreases |s| - p
    ensures r.Some? ==> p <= r.value.0 && r.value.0 + 2 <= r.value.1 <= |s|
  {
    if p >= |s| then None
    else
      match SeparatorAt(s, p)
      case Some(e) => Some((p, e))
      case None => FirstSeparator(s, p + 1)
  }

  /** The match found is the leftmost one, and the longest at its start;
      when none is found, there is none. */
  lemma {:induction false} FirstSeparatorIsLeftmost(s: string, p: nat)
    decreases |s| - p
    ensures var r := FirstSeparator(s, p);
      && (r.Some? ==> BlankBetween(s, r.value.0, r.value.1 - 1))
      && (r.Some? ==> forall m :: BlankBetween(s, r.value.0, m) ==> m <= r.value.1 - 1)
      && (r.Some? ==> forall b, m :: p <= b < r.value.0 ==> !BlankBetween(s, b, m))
      && (r.None? ==> forall b, m :: p <= b ==> !BlankBetween(s, b, m))
  {
    if p < |s| && SeparatorAt(s, p).None? {
      FirstSeparatorIsLeftmost(s, p + 1);
      assert forall m :: !BlankBetween(s, p, m);
    }
  }

  /** `re.split(r"\n\s*\n", s)`: the pieces between successive leftmost
      matches. There is always at least one piece. */
  function Split(s: string): (r: seq<string>)
    decreases |s|
    ensures |r| >= 1
    ensures r == [s] <==> NoBlankIn(s)
  {
    FirstSeparatorIsLeftmost(s, 0);
    match FirstSeparator(s, 0)
    case None => [s]
    case Some((a, e)) => [s[..a]] + Split(s[e..])
  }

  // ------------------------------------------------------------- chunking

  /** `paragraph_chunking(text)`. Never fails. The chunk texts are the
      stripped non-empty pieces of the split, in order. */
  function ParagraphChunking(text: string): (r: seq<Chunk>)
    ensures HoldsTexts(r, StrippedPieces(Split(Strip(text))))
    ensures forall k :: 0 <= k < |r| ==> |r[k].text| > 0 && Trimmed(r[k].text)
    ensures forall k :: 0 <= k < |r| ==> r[k].end - r[k].start == |r[k].text|
    ensures |r| > 0 ==> r[0].start == 0
    ensures forall k :: 0 <= k < |r| - 1 ==> r[k + 1].start == r[k].end + 2
    ensures AllSpace(text) <==> r == []
  {
    var s := Strip(text);
    var pieces := Split(s);
    StripEmpty(text);
    assert AllSpace(text) ==> pieces == [[]];
    VisibleTextKept(text);
    ParagraphsFrom(pieces, 0)
  }

  /** What the loop keeps of the pieces: each one stripped, the empty ones
      dropped, in order. */
  function StrippedPieces(pieces: seq<string>): (kept: seq<string>)
    decreases |pieces|
    ensures |kept| <= |pieces|
  {
    if |pieces| == 0 then []
    else if |Strip(pieces[0])| == 0 then StrippedPieces(pieces[1..])
    else [Strip(pieces[0])] + StrippedPieces(pieces[1..])
  }

  /** The loop over the pieces, with the running `start`. */
  function ParagraphsFrom(pieces: seq<string>, start: int): (r: seq<Chunk>)
    decreases |pieces|
    ensures HoldsTexts(r, StrippedPieces(pieces))
    ensures forall k :: 0 <= k < |r| ==> |r[k].text| > 0 && Trimmed(r[k].text)
    ensures forall k :: 0 <= k < |r| ==> r[k].end - r[k].start == |r[k].text|
    ensures |r| > 0 ==> r[0].start == start
    ensures forall k :: 0 <= k < |r| - 1 ==> r[k + 1].start == r[k].end + 2
  {
    if |pieces| == 0 then []
    else
      var p := Strip(pieces[0]);
      if |p| == 0 then ParagraphsFrom(pieces[1..], start)
      else
        var c := Chunk(start, start + |p|, p);
        var rest := ParagraphsFrom(pieces[1..], start + |p| + 2);
        ConsChunk(c, rest, StrippedPieces(pieces[1..]));
        [c] + rest
  }

  /** A paragraph chunk in front of a run of paragraph chunks that starts
      two past its end is again such a run. */
  lemma ConsChunk(c: Chunk, rest: seq<Chunk>, texts: seq<string>)
    requires |c.text| > 0 && Trimmed(c.text) && c.end - c.start == |c.text|
    requires HoldsTexts(rest, texts)
    requires forall k :: 0 <= k < |rest| ==> |rest[k].text| > 0 && Trimmed(rest[k].text)
    requires forall k :: 0 <= k < |rest| ==> rest[k].end - rest[k].start == |rest[k].text|
    requires |rest| > 0 ==> rest[0].start == c.end + 2
    requires forall k :: 0 <= k < |rest| - 1 ==> rest[k + 1].start == rest[k].end + 2
    ensures var r := [c] + rest;
      && HoldsTexts(r, [c.text] + texts)
      && (forall k :: 0 <= k < |r| ==> |r[k].text| > 0 && Trimmed(r[k].text))
      && (forall k :: 0 <= k < |r| ==> r[k].end - r[k].start == |r[k].text|)
      && (forall k :: 0 <= k < |r| - 1 ==> r[k + 1].start == r[k].end + 2)
  {
    var r := [c] + rest;
    assert forall k :: 1 <= k < |r| ==> r[k] == rest[k - 1];
    ConsHoldsTexts(c, rest, texts);
  }

  /** The chunks hold exactly the texts `texts`, in order. */
  predicate HoldsTexts(r: seq<Chunk>, texts: seq<string>)
  {
    |r| == |texts| && forall k :: 0 <= k < |r| ==> r[k].text == texts[k]
  }

  /** One more chunk in front holds one more text in front. */
  lemma ConsHoldsTexts(c: Chunk, rest: seq<Chunk>, texts: seq<string>)
    requires HoldsTexts(rest, texts)
    ensures HoldsTexts([c] + rest, [c.text] + texts)
  {
    var r := [c] + rest;
    forall k | 1 <= k < |r| ensures r[k].text == ([c.text] + texts)[k] {
      assert r[k] == rest[k - 1];
    }
  }

  /** A text with a visible character keeps at least one piece. */
  lemma VisibleTextKept(text: string)
    ensures !AllSpace(text) ==> |StrippedPieces(Split(Strip(text)))| > 0
  {
    var s := Strip(text);
    StripEmpty(text);
    if !AllSpace(text) {
      FirstPieceVisible(s);
      var pieces := Split(s);
      StripEmpty(pieces[0]);
    }
  }

  /** The first piece of a text that starts with a visible character starts
      with that character: no separator can match at position 0. */
  lemma FirstPieceVisible(s: string)
    requires |s| > 0 && !IsSpace(s[0])
    ensures |Split(s)[0]| > 0 && Split(s)[0][0] == s[0]
  {
    FirstSeparatorIsLeftmost(s, 0);
  }

  // ------------------------------------------------- every text split back

  /** No match of the separator lies inside `p`. */
  predicate NoBlankIn(p: string)
  {
    forall b, m :: 0 <= b < m < |p| ==> !BlankBetween(p, b, m)
  }

  /** The separators `re.split` removes, in order: each leftmost match. */
  function Separators(s: string): (seps: seq<string>)
    decreases |s|
    ensures |seps| == |Split(s)| - 1
  {
    match FirstSeparator(s, 0)
    case None => []
    case Some((a, e)) => [s[a..e]] + Separators(s[e..])
  }

  /** Every text is its split pieces joined back by the separators the split
      removed; each separator is a whole blank-line run and no piece holds a
      match. */
  lemma SplitCovers(s: string)
    ensures JoinWith(Split(s), Separators(s)) == s
    ensures forall i :: 0 <= i < |Separators(s)| ==> IsBlankRun(Separators(s)[i])
    ensures forall i :: 0 <= i < |Split(s)| ==> NoBlankIn(Split(s)[i])
  {
    SplitJoinsBack(s);
    SeparatorsAreBlankRuns(s);
    PiecesHoldNoMatch(s);
  }

  lemma {:induction false} SplitJoinsBack(s: string)
    decreases |s|
    ensures JoinWith(Split(s), Separators(s)) == s
  {
    var r := FirstSeparator(s, 0);
    if r.Some? {
      var a, e := r.value.0, r.value.1;
      SplitAt(s, a, e);
      SeparatorsAt(s, a, e);
      var t := s[e..];
      SplitJoinsBack(t);
      JoinWithCons(s[..a], s[a..e], Split(t), Separators(t));
      Reassemble(s, a, e);
    }
  }

  /** Cutting a text twice and gluing the three parts gives it back. */
  lemma Reassemble(s: string, a: nat, e: nat)
    requires a <= e <= |s|
    ensures s[..a] + s[a..e] + s[e..] == s
  {
  }

  /** The separators when the leftmost one is `s[a..e]`. */
  lemma SeparatorsAt(s: string, a: nat, e: nat)
    requires FirstSeparator(s, 0) == Some((a, e))
    ensures a <= e <= |s|
    ensures Separators(s) == [s[a..e]] + Separators(s[e..])
  {
  }

  /** One more piece and separator in front of a join. */
  lemma JoinWithCons(p: string, sep: string, ps: seq<string>, seps: seq<string>)
    requires |ps| >= 1 && |seps| == |ps| - 1
    ensures JoinWith([p] + ps, [sep] + seps) == p + sep + JoinWith(ps, seps)
  {
    assert ([p] + ps)[1..] == ps && ([sep] + seps)[1..] == seps;
  }

  lemma {:induction false} SeparatorsAreBlankRuns(s: string)
    decreases |s|
    ensures forall i :: 0 <= i < |Separators(s)| ==> IsBlankRun(Separators(s)[i])
  {
    var r := FirstSeparator(s, 0);
    if r.Some? {
      var a, e := r.value.0, r.value.1;
      SeparatorsAt(s, a, e);
      var t := s[e..];
      SeparatorsAreBlankRuns(t);
      FirstSeparatorIsLeftmost(s, 0);
      MatchIsBlankRun(s, a, e);
      var seps := Separators(s);
      forall i | 0 <= i < |seps| ensures IsBlankRun(seps[i]) {
        if i > 0 {
          assert seps[i] == Separators(t)[i - 1];
        }
      }
    }
  }

  lemma {:induction false} PiecesHoldNoMatch(s: string)
    decreases |s|
    ensures forall i :: 0 <= i < |Split(s)| ==> NoBlankIn(Split(s)[i])
  {
    FirstSeparatorIsLeftmost(s, 0);
    var r := FirstSeparator(s, 0);
    if r.None? {
      assert NoBlankIn(s);
    } else {
      var a, e := r.value.0, r.value.1;
      SplitAt(s, a, e);
      var t := s[e..];
      PiecesHoldNoMatch(t);
      PrefixNoBlank(s, a);
      var ps := Split(s);
      forall i | 0 <= i < |ps| ensures NoBlankIn(ps[i]) {
        if i > 0 {
          assert ps[i] == Split(t)[i - 1];
        }
      }
    }
  }

  /** A match of `\n\s*\n`, taken whole, is a blank-line run. */
  lemma MatchIsBlankRun(s: string, a: nat, e: nat)
    requires a < e && BlankBetween(s, a, e - 1)
    ensures IsBlankRun(s[a..e])
  {
    var sep := s[a..e];
    forall k | 0 <= k < |sep| ensures IsSpace(sep[k]) {
      assert sep[k] == s[a + k];
    }
  }

  /** A prefix ending before the leftmost match holds no match. */
  lemma PrefixNoBlank(s: string, a: nat)
    requires a <= |s|
    requires forall b, m :: 0 <= b < a ==> !BlankBetween(s, b, m)
    ensures NoBlankIn(s[..a])
  {
    var p := s[..a];
    forall b, m | BlankBetween(p, b, m) ensures false {
      assert forall k :: b <= k <= m ==> p[k] == s[k];
      assert BlankBetween(s, b, m);
    }
  }

  // ------------------------------------------------ paragraphs joined back

  /** A paragraph as the splitter hands it on: non-empty, trimmed, and with
      no match of the separator inside. */
  predicate IsParagraph(p: string)
  {
    |p| > 0 && Trimmed(p) && NoBlankIn(p)
  }

  /** A separator that `\n\s*\n` matches whole: whitespace that begins and
      ends with a newline. `"\n\n"` is the shortest one. */
  predicate IsBlankRun(sep: string)
  {
    |sep| >= 2 && sep[0] == '\n' && sep[|sep| - 1] == '\n' && AllSpace(sep)
  }

  /** `ps[0] + seps[0] + ps[1] + ... + ps[n-1]`. */
  function JoinWith(ps: seq<string>, seps: seq<string>): string
    requires |ps| >= 1 && |seps| == |ps| - 1
    decreases |ps|
  {
    if |ps| == 1 then ps[0] else ps[0] + seps[0] + JoinWith(ps[1..], seps[1..])
  }

  /** Where `ps[k]` begins in `JoinWith(ps, seps)`. */
  function PieceStart(ps: seq<string>, seps: seq<string>, k: nat): nat
    requires |ps| >= 1 && |seps| == |ps| - 1 && k < |ps|
    decreases k
  {
    if k == 0 then 0 else |ps[0]| + |seps[0]| + PieceStart(ps[1..], seps[1..], k - 1)
  }

  /** How far the first `k` separators exceed two characters in total. */
  function Drift(seps: seq<string>, k: nat): int
    requires k <= |seps|
    decreases k
  {
    if k == 0 then 0 else |seps[0]| - 2 + Drift(seps[1..], k - 1)
  }

  lemma {:induction false} JoinEnds(ps: seq<string>, seps: seq<string>)
    requires |ps| >= 1 && |seps| == |ps| - 1
    requires forall i :: 0 <= i < |ps| ==> |ps[i]| > 0
    ensures var s := JoinWith(ps, seps);
      && |s| > 0
      && s[0] == ps[0][0]
      && s[|s| - 1] == ps[|ps| - 1][|ps[|ps| - 1]| - 1]
    decreases |ps|
  {
    if |ps| > 1 {
      var t := JoinWith(ps[1..], seps[1..]);
      JoinEnds(ps[1..], seps[1..]);
      var s := JoinWith(ps, seps);
      assert s == ps[0] + seps[0] + t;
      assert s[0] == ps[0][0];
      assert s[|s| - 1] == t[|t| - 1];
      assert ps[1..][|ps| - 2] == ps[|ps| - 1];
    }
  }

  /** Each piece sits at `PieceStart` in the joined text. */
  lemma {:induction false} PieceAt(ps: seq<string>, seps: seq<string>, k: nat)
    requires |ps| >= 1 && |seps| == |ps| - 1 && k < |ps|
    ensures PieceStart(ps, seps, k) + |ps[k]| <= |JoinWith(ps, seps)|
    ensures JoinWith(ps, seps)[PieceStart(ps, seps, k)..PieceStart(ps, seps, k) + |ps[k]|] == ps[k]
    decreases k
  {
    var s := JoinWith(ps, seps);
    if k > 0 {
      var t := JoinWith(ps[1..], seps[1..]);
      var u := ps[0] + seps[0];
      assert s == u + t;
      PieceAt(ps[1..], seps[1..], k - 1);
      assert ps[1..][k - 1] == ps[k];
      var a := PieceStart(ps[1..], seps[1..], k - 1);
      SliceAfter(u, t, a, a + |ps[k]|);
    }
  }

  /** A slice past the front `u` of `u + t` is a slice of `t`. */
  lemma SliceAfter(u: string, t: string, i: nat, j: nat)
    requires i <= j <= |t|
    ensures (u + t)[|u| + i..|u| + j] == t[i..j]
  {
  }

  /** No match of the separator starts inside the leading paragraph `p` of
      `p + rest`. */
  lemma NoBlankInside(p: string, rest: string)
    requires IsParagraph(p)
    ensures forall b, m :: 0 <= b < |p| ==> !BlankBetween(p + rest, b, m)
  {
    var s := p + rest;
    forall b, m | 0 <= b < |p| && b < m < |s| && s[b] == '\n' && s[m] == '\n'
      ensures exists k :: b < k < m && !IsSpace(s[k])
    {
      if m < |p| {
        assert !BlankBetween(p, b, m);
        var k :| b < k < m && !IsSpace(p[k]);
        assert s[k] == p[k];
      } else {
        assert s[b] == p[b];
        assert s[|p| - 1] == p[|p| - 1];
        assert !IsSpace(s[|p| - 1]);
      }
    }
  }

  /** Splitting paragraphs joined by blank-line separators gives the
      paragraphs back, whatever whitespace the separators hold. */
  lemma {:induction false} SplitJoined(ps: seq<string>, seps: seq<string>)
    requires |ps| >= 1 && |seps| == |ps| - 1
    requires forall i :: 0 <= i < |ps| ==> IsParagraph(ps[i])
    requires forall i :: 0 <= i < |seps| ==> IsBlankRun(seps[i])
    ensures Split(JoinWith(ps, seps)) == ps
    decreases |ps|
  {
    if |ps| == 1 {
      assert JoinWith(ps, seps) == ps[0];
      FirstSeparatorIsLeftmost(ps[0], 0);
    } else {
      var t := JoinWith(ps[1..], seps[1..]);
      assert JoinWith(ps, seps) == ps[0] + seps[0] + t;
      JoinEnds(ps[1..], seps[1..]);
      assert t[0] == ps[1][0];
      SplitAtFirstBlank(ps[0], seps[0], t);
      SplitJoined(ps[1..], seps[1..]);
      assert ps == [ps[0]] + ps[1..];
    }
  }

  /** A paragraph, a blank-line separator and a text that starts with a
      visible character split at that separator first. */
  lemma SplitAtFirstBlank(p0: string, sep: string, t: string)
    requires IsParagraph(p0) && IsBlankRun(sep)
    requires |t| > 0 && !IsSpace(t[0])
    ensures Split(p0 + sep + t) == [p0] + Split(t)
  {
    var s := p0 + sep + t;
    var a, e := |p0|, |p0| + |sep|;
    FirstSeparatorOfJoin(p0, sep, t);
    SplitAt(s, a, e);
    assert s[..a] == p0;
    assert s[e..] == t;
  }

  /** The split when the leftmost separator is `s[a..e]`. */
  lemma SplitAt(s: string, a: nat, e: nat)
    requires FirstSeparator(s, 0) == Some((a, e))
    ensures a <= e <= |s|
    ensures Split(s) == [s[..a]] + Split(s[e..])
  {
  }

  /** The leftmost separator of `p0 + sep + t` is `sep`, matched whole. */
  lemma FirstSeparatorOfJoin(p0: string, sep: string, t: string)
    requires IsParagraph(p0) && IsBlankRun(sep)
    requires |t| > 0 && !IsSpace(t[0])
    ensures FirstSeparator(p0 + sep + t, 0) == Some((|p0|, |p0| + |sep|))
  {
    var s := p0 + sep + t;
    assert s == p0 + (sep + t);
    NoMatchInside(p0, sep + t, s);
    SeparatorAfterParagraph(p0, sep, t);
    FirstSeparatorSkips(s, 0, |p0|);
    FirstSeparatorHere(s, |p0|, |p0| + |sep|);
  }

  /** A match at the search position is the one found. */
  lemma FirstSeparatorHere(s: string, a: nat, e: nat)
    requires a < |s| && SeparatorAt(s, a) == Some(e)
    ensures FirstSeparator(s, a) == Some((a, e))
  {
  }

  /** The separator after the leading paragraph is matched whole. */
  lemma SeparatorAfterParagraph(p0: string, sep: string, t: string)
    requires IsBlankRun(sep) && |t| > 0 && !IsSpace(t[0])
    ensures SeparatorAt(p0 + sep + t, |p0|) == Some(|p0| + |sep|)
  {
    var s := p0 + sep + t;
    var e := |p0| + |sep|;
    BlankAtJoin(p0, sep, t);
    assert s[e] == t[0];
    SeparatorEndsAt(s, |p0|, e);
  }

  /** With whitespace-free text after it, a match ends where the
      whitespace does. */
  lemma SeparatorEndsAt(s: string, a: nat, e: nat)
    requires 1 <= e < |s| && BlankBetween(s, a, e - 1) && !IsSpace(s[e])
    ensures SeparatorAt(s, a) == Some(e)
  {
    var r := SeparatorAt(s, a);
    assert r.Some?;
    assert r.value - 1 >= e - 1;
  }

  /** No match of the separator is found at any position in `[p, a)`. */
  predicate NoSeparatorIn(s: string, p: nat, a: nat)
    requires a <= |s|
  {
    forall b :: p <= b < a ==> SeparatorAt(s, b).None?
  }

  /** No match is found inside a leading paragraph. */
  lemma NoMatchInside(p: string, rest: string, s: string)
    requires IsParagraph(p) && s == p + rest
    ensures NoSeparatorIn(s, 0, |p|)
  {
    NoBlankInside(p, rest);
    forall b | 0 <= b < |p|
      ensures SeparatorAt(s, b).None?
    {
      NoneWithoutMatch(s, b);
    }
  }

  /** Where no match starts, none is found. */
  lemma NoneWithoutMatch(s: string, b: nat)
    requires b < |s| && forall m :: !BlankBetween(s, b, m)
    ensures SeparatorAt(s, b).None?
  {
  }

  /** The search for the leftmost match moves past positions where none
      starts. */
  lemma {:induction false} FirstSeparatorSkips(s: string, p: nat, a: nat)
    requires p <= a < |s| && NoSeparatorIn(s, p, a)
    decreases a - p
    ensures FirstSeparator(s, p) == FirstSeparator(s, a)
  {
    if p < a {
      FirstSeparatorStep(s, p);
      FirstSeparatorSkips(s, p + 1, a);
    }
  }

  lemma FirstSeparatorStep(s: string, p: nat)
    requires p < |s| && SeparatorAt(s, p).None?
    ensures FirstSeparator(s, p) == FirstSeparator(s, p + 1)
  {
  }

  /** The separator between `p0` and `t` is a match of `\n\s*\n`. */
  lemma BlankAtJoin(p0: string, sep: string, t: string)
    requires IsBlankRun(sep) && |t| > 0
    ensures BlankBetween(p0 + sep + t, |p0|, |p0| + |sep| - 1)
  {
    var s := p0 + sep + t;
    var a, e := |p0|, |p0| + |sep|;
    assert s[a] == sep[0] && s[e - 1] == sep[|sep| - 1];
    forall k | a < k < e - 1 ensures IsSpace(s[k]) {
      assert s[k] == sep[k - a];
    }
  }

  /** Chunk `k` of `r` holds piece `k` at its true position in the joined
      text, shifted by `st` and less the separators' excess before it. */
  predicate PieceChunk(r: seq<Chunk>, ps: seq<string>, seps: seq<string>, st: int, k: nat)
    requires |seps| == |ps| - 1 && k < |r| && k < |ps|
  {
    r[k].text == ps[k] && r[k].start == st + PieceStart(ps, seps, k) - Drift(seps, k)
  }

  /** Chunking stripped, non-empty pieces keeps every piece, and the
      running offset of piece `k` is its true position in the joined text
      minus the separators' excess over two characters. */
  lemma {:induction false} ParagraphsOfPieces(ps: seq<string>, seps: seq<string>, st: int)
    requires |ps| >= 1 && |seps| == |ps| - 1
    requires forall i :: 0 <= i < |ps| ==> IsParagraph(ps[i])
    ensures var r := ParagraphsFrom(ps, st);
      && |r| == |ps|
      && forall k :: 0 <= k < |r| ==> PieceChunk(r, ps, seps, st, k)
    decreases |ps|
  {
    var r := ParagraphsFrom(ps, st);
    var p0 := ps[0];
    StripTrimmed(p0);
    if |ps| == 1 {
      assert r == [Chunk(st, st + |p0|, p0)];
      assert PieceChunk(r, ps, seps, st, 0);
    } else {
      var st' := st + |p0| + 2;
      var rest := ParagraphsFrom(ps[1..], st');
      assert forall i :: 0 <= i < |ps| - 1 ==> ps[1..][i] == ps[i + 1];
      ParagraphsOfPieces(ps[1..], seps[1..], st');
      assert r == [Chunk(st, st + |p0|, p0)] + rest;
      ConsParagraphs(ps, seps, st, st', rest);
    }
  }

  /** The first paragraph's chunk in front of the chunks of the others. */
  lemma ConsParagraphs(ps: seq<string>, seps: seq<string>, st: int, st': int, rest: seq<Chunk>)
    requires |ps| >= 2 && |seps| == |ps| - 1 && |rest| == |ps| - 1 && st' == st + |ps[0]| + 2
    requires forall k :: 0 <= k < |rest| ==> PieceChunk(rest, ps[1..], seps[1..], st', k)
    ensures var r := [Chunk(st, st + |ps[0]|, ps[0])] + rest;
      forall k :: 0 <= k < |r| ==> PieceChunk(r, ps, seps, st, k)
  {
    var r := [Chunk(st, st + |ps[0]|, ps[0])] + rest;
    assert PieceChunk(r, ps, seps, st, 0);
    forall k | 1 <= k < |r|
      ensures PieceChunk(r, ps, seps, st, k)
    {
      LaterParagraph(ps, seps, st, r, rest, k);
    }
  }

  /** Chunk `k` of the chunks that follow the first one. */
  lemma LaterParagraph(ps: seq<string>, seps: seq<string>, st: int,
                       r: seq<Chunk>, rest: seq<Chunk>, k: nat)
    requires |ps| >= 2 && |seps| == |ps| - 1 && 1 <= k < |ps|
    requires |rest| == |ps| - 1 && |r| == |ps| && r[k] == rest[k - 1]
    requires PieceChunk(rest, ps[1..], seps[1..], st + |ps[0]| + 2, k - 1)
    ensures PieceChunk(r, ps, seps, st, k)
  {
    assert ps[1..][k - 1] == ps[k];
  }

  /** Paragraph chunking of paragraphs joined by blank-line separators
      returns exactly those paragraphs, each at its true offset less the
      accumulated excess of the separators over two characters. */
  lemma ParagraphChunkingOfJoined(ps: seq<string>, seps: seq<string>)
    requires |ps| >= 1 && |seps| == |ps| - 1
    requires forall i :: 0 <= i < |ps| ==> IsParagraph(ps[i])
    requires forall i :: 0 <= i < |seps| ==> IsBlankRun(seps[i])
    ensures var r := ParagraphChunking(JoinWith(ps, seps));
      && |r| == |ps|
      && forall k :: 0 <= k < |r| ==>
           r[k].text == ps[k] && r[k].start == PieceStart(ps, seps, k) - Drift(seps, k)
  {
    ChunkingOfJoined(ps, seps);
    ParagraphsOfPieces(ps, seps, 0);
    var r := ParagraphsFrom(ps, 0);
    forall k | 0 <= k < |r|
      ensures r[k].text == ps[k] && r[k].start == PieceStart(ps, seps, k) - Drift(seps, k)
    {
      assert PieceChunk(r, ps, seps, 0, k);
    }
  }

  /** Joined paragraphs are chunked from the paragraphs themselves. */
  lemma ChunkingOfJoined(ps: seq<string>, seps: seq<string>)
    requires |ps| >= 1 && |seps| == |ps| - 1
    requires forall i :: 0 <= i < |ps| ==> IsParagraph(ps[i])
    requires forall i :: 0 <= i < |seps| ==> IsBlankRun(seps[i])
    ensures ParagraphChunking(JoinWith(ps, seps)) == ParagraphsFrom(ps, 0)
  {
    var s := JoinWith(ps, seps);
    JoinEnds(ps, seps);
    assert Trimmed(s);
    StripTrimmed(s);
    SplitJoined(ps, seps);
  }

  lemma {:induction false} NoDrift(seps: seq<string>, k: nat)
    requires k <= |seps|
    requires forall i :: 0 <= i < |seps| ==> seps[i] == "\n\n"
    ensures Drift(seps, k) == 0
    decreases k
  {
    if k > 0 {
      NoDrift(seps[1..], k - 1);
    }
  }

  /** When every separator is exactly one blank line, each chunk's offsets
      locate its text in the input exactly. */
  lemma ExactOffsetsForSingleBlankLines(ps: seq<string>, seps: seq<string>)
    requires |ps| >= 1 && |seps| == |ps| - 1
    requires forall i :: 0 <= i < |ps| ==> IsParagraph(ps[i])
    requires forall i :: 0 <= i < |seps| ==> seps[i] == "\n\n"
    ensures var text := JoinWith(ps, seps);
      var r := ParagraphChunking(text);
      forall k :: 0 <= k < |r| ==> 0 <= r[k].start <= r[k].end <= |text| && text[r[k].start..r[k].end] == r[k].text
  {
    var text := JoinWith(ps, seps);
    ParagraphChunkingOfJoined(ps, seps);
    var r := ParagraphChunking(text);
    forall k | 0 <= k < |r|
      ensures 0 <= r[k].start <= r[k].end <= |text| && text[r[k].start..r[k].end] == r[k].text
    {
      NoDrift(seps, k);
      PieceAt(ps, seps, k);
    }
  }
}

=== FILE: sections.dfy ===
/** `markdown_section_chunking` of `chunks.py`.

    The pattern `^(#{level} )(.+)$` under `re.MULTILINE` matches a line that
    begins with exactly `level` `'#'` characters and a space and has at least
    one more character before the line ends. `re.split` with its two groups
    yields `[before, hashes, title, body, hashes, title, body, ...]`, and the
    loop turns each `(hashes, title, body)` triple into one chunk whose
    offsets run on contiguously from 0.
 */
module Sections {
  import opened Wrappers
  import opened Strings
  import opened ChunkRecords

  // ------------------------------------------------------- header lines

  /** `^` under `re.MULTILINE`: the start of the text or just after a newline. */
  predicate IsLineStart(s: string, q: nat)
  {
    q == 0 || (q <= |s| && s[q - 1] == '\n')
  }

  /** A header line of the given level starts at `q`. */
  predicate IsHeaderAt(s: string, level: nat, q: nat)
  {
    && IsLineStart(s, q)
    && q + level + 1 < |s|
    && (forall i :: q <= i < q + level ==> s[i] == '#')
    && s[q + level] == ' '
    && s[q + level + 1] != '\n'
  }

  /** Where the line containing `q` ends: its newline, or the end of the text. */
  function LineEnd(s: string, q: nat): (e: nat)
    requires q <= |s|
    decreases |s| - q
    ensures q <= e <= |s|
    ensures e < |s| ==> s[e] == '\n'
    ensures forall i :: q <= i < e ==> s[i] != '\n'
  {
    if q == |s| || s[q] == '\n' then q else LineEnd(s, q + 1)
  }

  /** The leftmost header line at or after `p`: where the regex search from
      `p` succeeds. */
  function FindHeader(s: string, level: nat, p: nat): (r: Option<nat>)
    decreases |s| - p
    ensures r.Some? ==> p <= r.value < |s| && IsHeaderAt(s, level, r.value)
    ensures r.Some? ==> forall b :: p <= b < r.value ==> !IsHeaderAt(s, level, b)
    ensures r.None? ==> forall b :: p <= b ==> !IsHeaderAt(s, level, b)
  {
    if p >= |s| then None
    else if IsHeaderAt(s, level, p) then Some(p)
    else FindHeader(s, level, p + 1)
  }

  /** `pattern.split(s[from..])` for the header pattern: the text before the
      next header, the two groups of the header, and so on. A search resumes
      where the previous match ended, at the end of the header line. */
  function PartsFrom(s: string, level: nat, from: nat): (parts: seq<string>)
    requires from <= |s|
    decreases |s| - from
    ensures |parts| % 3 == 1
  {
    match FindHeader(s, level, from)
    case None => [s[from..]]
    case Some(q) =>
      var e := LineEnd(s, q);
      assert s[q + level] == ' ';
      [s[from..q], s[q..q + level + 1], s[q + level + 1..e]] + PartsFrom(s, level, e)
  }

  /** The first part is the text from `from` up to the first header line
      after it, or to the end when there is none; it is the only part
      exactly when no header line follows. */
  lemma LeadingPart(s: string, level: nat, from: nat)
    requires from <= |s|
    ensures var parts := PartsFrom(s, level, from);
      var cut := from + |parts[0]|;
      && cut <= |s| && parts[0] == s[from..cut]
      && (forall b :: from <= b < cut ==> !IsHeaderAt(s, level, b))
      && (cut < |s| ==> IsHeaderAt(s, level, cut))
      && (|parts| == 1 <==> forall b :: from <= b ==> !IsHeaderAt(s, level, b))
  {
  }

  // ------------------------------------------------------------ chunking

  /** A section's chunk text: the stripped header, followed by a blank line
      and the stripped body when the body is not empty. */
  function SectionText(header: string, content: string): string
  {
    if |content| > 0 then header + "\n\n" + content else header
  }

  /** `markdown_section_chunking(text, level)`. Never fails; text before the
      first header line is not part of any chunk. */
  function MarkdownSectionChunking(text: string, level: nat := 2): (r: seq<Chunk>)
    ensures |r| > 0 ==> r[0].start == 0
    ensures forall k :: 0 <= k < |r| ==> r[k].end - r[k].start == |r[k].text|
    ensures forall k :: 0 <= k < |r| - 1 ==> r[k + 1].start == r[k].end
  {
    SectionsFrom(PartsFrom(text, level, 0), 1, 0)
  }

  /** The loop `for i in range(1, len(parts), 3)`, entered at index `i`. */
  function SectionsFrom(parts: seq<string>, i: nat, start: int): (r: seq<Chunk>)
    requires i <= |parts| && (|parts| - i) % 3 == 0
    decreases |parts| - i
    ensures 3 * |r| == |parts| - i
    ensures |r| > 0 ==> r[0].start == start
    ensures forall k :: 0 <= k < |r| ==> r[k].end - r[k].start == |r[k].text|
    ensures forall k :: 0 <= k < |r| - 1 ==> r[k + 1].start == r[k].end
  {
    if i >= |parts| then []
    else
      TripleStep(|parts| - i);
      var c := SectionChunk(parts, i, start);
      [c] + SectionsFrom(parts, i + 3, c.end)
  }

  /** One pass of the loop body: the header from `parts[i]` and
      `parts[i + 1]`, the body from `parts[i + 2]` when there is one. */
  function SectionChunk(parts: seq<string>, i: nat, start: int): (c: Chunk)
    requires i + 1 < |parts|
    ensures c.start == start && c.end == start + |c.text|
  {
    var header := Strip(parts[i] + parts[i + 1]);
    var content := if i + 2 < |parts| then Strip(parts[i + 2]) else [];
    var text := SectionText(header, content);
    Chunk(start, start + |text|, text)
  }

  /** A positive multiple of three is at least three, and three less is
      still a multiple of three. */
  lemma TripleStep(n: int)
    requires n > 0 && n % 3 == 0
    ensures n >= 3 && (n - 3) % 3 == 0
  {
  }

  /** Chunk `k` of `r` is the loop body run on the `k`-th triple of `parts`
      counted from index `i`. */
  predicate LoopBodyAt(parts: seq<string>, i: nat, r: seq<Chunk>, k: nat)
    requires k < |r| && i + 3 * k + 1 < |parts|
  {
    r[k] == SectionChunk(parts, i + 3 * k, r[k].start)
  }

  /** Each chunk of `r` is the loop body run on its own triple of `parts`,
      the triples starting at index `i`. */
  predicate RunsLoopBody(parts: seq<string>, i: nat, r: seq<Chunk>)
  {
    && i + 3 * |r| <= |parts|
    && forall k :: 0 <= k < |r| ==> LoopBodyAt(parts, i, r, k)
  }

  /** The `k`-th chunk is the loop body run on the `k`-th triple of split
      parts. */
  lemma {:induction false} SectionsFromChunks(parts: seq<string>, i: nat, start: int)
    requires i <= |parts| && (|parts| - i) % 3 == 0
    decreases |parts| - i
    ensures RunsLoopBody(parts, i, SectionsFrom(parts, i, start))
  {
    if i < |parts| {
      TripleStep(|parts| - i);
      var c := SectionChunk(parts, i, start);
      var rest := SectionsFrom(parts, i + 3, c.end);
      SectionsFromChunks(parts, i + 3, c.end);
      assert SectionsFrom(parts, i, start) == [c] + rest;
      ConsLoopBody(parts, i, c, rest);
    }
  }

  /** One more pass of the loop body in front of the later chunks. */
  lemma ConsLoopBody(parts: seq<string>, i: nat, c: Chunk, rest: seq<Chunk>)
    requires i + 3 <= |parts| && c == SectionChunk(parts, i, c.start)
    requires RunsLoopBody(parts, i + 3, rest)
    ensures RunsLoopBody(parts, i, [c] + rest)
  {
    var r := [c] + rest;
    assert LoopBodyAt(parts, i, r, 0);
    forall k | 1 <= k < |r|
      ensures LoopBodyAt(parts, i, r, k)
    {
      ShiftedChunk(parts, i, c, rest, k);
    }
  }

  /** The chunks after the first keep the loop body of their triples, three
      parts further on. */
  lemma ShiftedChunk(parts: seq<string>, i: nat, c: Chunk, rest: seq<Chunk>, k: nat)
    requires 1 <= k <= |rest| && i + 3 + 3 * |rest| <= |parts|
    requires LoopBodyAt(parts, i + 3, rest, k - 1)
    ensures LoopBodyAt(parts, i, [c] + rest, k)
  {
    var j := k - 1;
    assert ([c] + rest)[k] == rest[j];
    assert (i + 3) + 3 * j == i + 3 * k;
  }

  // ------------------------------------------------- reference: header scan

  /** Every position at or after `p` where a header line of the level starts,
      found by looking at each position independently. */
  function AllHeaders(s: string, level: nat, p: nat): (hs: seq<nat>)
    decreases |s| - p
    ensures forall k :: 0 <= k < |hs| ==> p <= hs[k] < |s| && IsHeaderAt(s, level, hs[k])
  {
    if p >= |s| then []
    else if IsHeaderAt(s, level, p) then [p] + AllHeaders(s, level, p + 1)
    else AllHeaders(s, level, p + 1)
  }

  /** The first element of `hs`, or `d` when there is none. */
  function FirstOr(hs: seq<nat>, d: nat): nat
  {
    if |hs| > 0 then hs[0] else d
  }

  /** The header line starting at `q`, without its newline. */
  function HeaderLine(s: string, q: nat): string
    requires q <= |s|
  {
    s[q..LineEnd(s, q)]
  }

  /** Where the body under the header line at `q` ends: at the next header
      line, or at the end of the text. */
  function BodyEnd(s: string, level: nat, q: nat): (b: nat)
    requires q <= |s|
    ensures LineEnd(s, q) <= b <= |s|
  {
    var e := LineEnd(s, q);
    var next := AllHeaders(s, level, e);
    if |next| > 0 then next[0] else |s|
  }

  /** Positions with no header line contribute nothing to the scan. */
  lemma {:induction false} SkipNonHeaders(s: string, level: nat, a: nat, b: nat)
    requires a <= b <= |s|
    requires forall x :: a <= x < b ==> !IsHeaderAt(s, level, x)
    decreases b - a
    ensures AllHeaders(s, level, a) == AllHeaders(s, level, b)
  {
    if a < b {
      assert !IsHeaderAt(s, level, a);
      SkipNonHeaders(s, level, a + 1, b);
    }
  }

  /** No other header line starts inside a header line, nor right at its end
      when the text ends there without a newline. */
  lemma NoHeaderInsideLine(s: string, level: nat, q: nat)
    requires IsHeaderAt(s, level, q)
    ensures q + level + 1 < LineEnd(s, q)
    ensures forall x :: q < x <= LineEnd(s, q) ==> !IsLineStart(s, x)
  {
    var e := LineEnd(s, q);
    assert s[q + level + 1] != '\n';
    forall x | q < x <= e
      ensures !IsLineStart(s, x)
    {
      assert q <= x - 1 < e;
    }
  }

  /** The regex search from `p` agrees with the position-by-position scan, and
      the next search starts after the found line without missing a header. */
  lemma FindHeaderIsFirst(s: string, level: nat, p: nat)
    requires p <= |s|
    ensures FindHeader(s, level, p).None? <==> AllHeaders(s, level, p) == []
    ensures FindHeader(s, level, p).Some? ==>
      var q := FindHeader(s, level, p).value;
      AllHeaders(s, level, p) == [q] + AllHeaders(s, level, LineEnd(s, q))
  {
    match FindHeader(s, level, p)
    case None =>
      SkipNonHeaders(s, level, p, |s|);
    case Some(q) =>
      SkipNonHeaders(s, level, p, q);
      NoHeaderInsideLine(s, level, q);
      SkipNonHeaders(s, level, q + 1, LineEnd(s, q));
  }

  /** The `k`-th triple of split parts belongs to the `k`-th header line:
      its two groups make up the header line, and the third part is the body
      up to the next header line. */
  predicate TripleAt(s: string, level: nat, hs: seq<nat>, parts: seq<string>, k: nat)
    requires k < |hs| && hs[k] < |s| && 3 + 3 * k < |parts|
  {
    && parts[1 + 3 * k] + parts[2 + 3 * k] == HeaderLine(s, hs[k])
    && parts[3 + 3 * k] == s[LineEnd(s, hs[k])..BodyEnd(s, level, hs[k])]
  }

  /** How the split parts line up with the header lines after `from`. */
  predicate PartsMatch(s: string, level: nat, from: nat, hs: seq<nat>, parts: seq<string>)
    requires from <= |s|
    requires forall k :: 0 <= k < |hs| ==> from <= hs[k] < |s|
  {
    && |parts| == 1 + 3 * |hs|
    && from <= FirstOr(hs, |s|)
    && parts[0] == s[from..FirstOr(hs, |s|)]
    && forall k :: 0 <= k < |hs| ==> TripleAt(s, level, hs, parts, k)
  }

  /** `re.split` with the header pattern yields the text before the first
      header line, then for each header line its two groups and the body up
      to the next header line. */
  lemma {:induction false} PartsFollowHeaders(s: string, level: nat, from: nat)
    requires from <= |s|
    decreases |s| - from
    ensures PartsMatch(s, level, from, AllHeaders(s, level, from), PartsFrom(s, level, from))
  {
    FindHeaderIsFirst(s, level, from);
    match FindHeader(s, level, from)
    case None =>
    case Some(q) =>
      var e := LineEnd(s, q);
      PartsAtHeader(s, level, from, q);
      PartsFollowHeaders(s, level, e);
      var lead := [s[from..q], s[q..q + level + 1], s[q + level + 1..e]];
      PartsStep(s, level, from, q, AllHeaders(s, level, e), lead, PartsFrom(s, level, e));
  }

  /** The split parts from `from` when the next header line is at `q`. */
  lemma PartsAtHeader(s: string, level: nat, from: nat, q: nat)
    requires from <= |s| && FindHeader(s, level, from) == Some(q)
    ensures q + level + 1 < LineEnd(s, q)
    ensures PartsFrom(s, level, from)
         == [s[from..q], s[q..q + level + 1], s[q + level + 1..LineEnd(s, q)]]
            + PartsFrom(s, level, LineEnd(s, q))
  {
    NoHeaderInsideLine(s, level, q);
  }

  /** One match of the split: the parts before and of the header line at
      `q`, followed by the parts from the end of that line on. */
  lemma PartsStep(s: string, level: nat, from: nat, q: nat, tail: seq<nat>,
                  lead: seq<string>, rest: seq<string>)
    requires from <= q && IsHeaderAt(s, level, q)
    requires tail == AllHeaders(s, level, LineEnd(s, q))
    requires lead == [s[from..q], s[q..q + level + 1], s[q + level + 1..LineEnd(s, q)]]
    requires PartsMatch(s, level, LineEnd(s, q), tail, rest)
    ensures PartsMatch(s, level, from, [q] + tail, lead + rest)
  {
    var e := LineEnd(s, q);
    var parts := lead + rest;
    var hs := [q] + tail;
    FirstTriple(s, level, from, q, tail, lead, rest);
    forall k | 1 <= k < |hs|
      ensures TripleAt(s, level, hs, parts, k)
    {
      ShiftedTriple(s, level, e, q, tail, rest, lead, k);
    }
  }

  /** The triple of the header line at `q` itself. */
  lemma FirstTriple(s: string, level: nat, from: nat, q: nat, tail: seq<nat>,
                    lead: seq<string>, rest: seq<string>)
    requires from <= q && IsHeaderAt(s, level, q)
    requires tail == AllHeaders(s, level, LineEnd(s, q))
    requires lead == [s[from..q], s[q..q + level + 1], s[q + level + 1..LineEnd(s, q)]]
    requires |rest| == 1 + 3 * |tail| && rest[0] == s[LineEnd(s, q)..FirstOr(tail, |s|)]
    ensures TripleAt(s, level, [q] + tail, lead + rest, 0)
  {
    NoHeaderInsideLine(s, level, q);
    AdjacentSlices(s, q, q + level + 1, LineEnd(s, q));
    assert (lead + rest)[3] == rest[0];
  }

  /** The triples after the first keep their match, three parts and one
      header further on. */
  lemma ShiftedTriple(s: string, level: nat, e: nat, q: nat, tail: seq<nat>, rest: seq<string>,
                      lead: seq<string>, k: nat)
    requires q < |s| && forall x :: 0 <= x < |tail| ==> tail[x] < |s|
    requires |lead| == 3 && 1 <= k <= |tail| && |rest| == 1 + 3 * |tail|
    requires TripleAt(s, level, tail, rest, k - 1)
    ensures TripleAt(s, level, [q] + tail, lead + rest, k)
  {
    var j := k - 1;
    assert ([q] + tail)[k] == tail[j];
    assert (lead + rest)[1 + 3 * k] == rest[1 + 3 * j];
    assert (lead + rest)[2 + 3 * k] == rest[2 + 3 * j];
    assert (lead + rest)[3 + 3 * k] == rest[3 + 3 * j];
  }

  // ------------------------------------------------------- main property

  /** The text of the section chunk for the header line at `q`: the stripped
      header line, and the stripped body up to the next header line. */
  function ExpectedSection(s: string, level: nat, q: nat): string
    requires q <= |s|
  {
    SectionText(Strip(HeaderLine(s, q)), Strip(s[LineEnd(s, q)..BodyEnd(s, level, q)]))
  }

  /** `markdown_section_chunking` yields one chunk per header line of the
      level, in text order, each holding that header line and the body under
      it up to the next header line; text before the first header line is
      dropped. */
  lemma SectionsFollowHeaders(text: string, level: nat)
    ensures var r := MarkdownSectionChunking(text, level);
      var hs := AllHeaders(text, level, 0);
      && |r| == |hs|
      && forall k :: 0 <= k < |r| ==> r[k].text == ExpectedSection(text, level, hs[k])
  {
    var parts := PartsFrom(text, level, 0);
    var hs := AllHeaders(text, level, 0);
    var r := SectionsFrom(parts, 1, 0);
    PartsFollowHeaders(text, level, 0);
    SectionsFromChunks(parts, 1, 0);
    forall k | 0 <= k < |r|
      ensures r[k].text == ExpectedSection(text, level, hs[k])
    {
      assert LoopBodyAt(parts, 1, r, k);
      SectionOfTriple(text, level, hs, parts, r[k], k);
    }
  }

  /** The loop body run on the `k`-th triple gives the `k`-th header's
      section. */
  lemma SectionOfTriple(s: string, level: nat, hs: seq<nat>, parts: seq<string>, c: Chunk, k: nat)
    requires forall j :: 0 <= j < |hs| ==> hs[j] < |s|
    requires PartsMatch(s, level, 0, hs, parts)
    requires k < |hs|
    requires c == SectionChunk(parts, 1 + 3 * k, c.start)
    ensures c.text == ExpectedSection(s, level, hs[k])
  {
    assert TripleAt(s, level, hs, parts, k);
  }
}

=== FILE: strings.dfy ===
/** String helpers with the Python semantics the modelled code relies on:
    whitespace, `str.strip`, slicing with clamped bounds, `str.split(sep)`
    with a one-character separator, and ASCII `str.lower`.
 */
module Strings {
  import opened Wrappers

  /** The whitespace class used both for the regex escape `\s` and for
      `str.strip()`: space, tab, line feed, carriage return, vertical tab
      and form feed. */
  predicate IsSpace(c: char)
  {
    c == ' ' || c == '\t' || c == '\n' || c == '\r' || c == '\U{000B}' || c == '\U{000C}'
  }

  predicate AllSpace(s: string)
  {
    forall i :: 0 <= i < |s| ==> IsSpace(s[i])
  }

  /** Neither the first nor the last character is whitespace. */
  predicate Trimmed(s: string)
  {
    |s| > 0 ==> !IsSpace(s[0]) && !IsSpace(s[|s| - 1])
  }

  /** `str.strip()`: drops whitespace from both ends. */
  function Strip(s: string): (r: string)
    decreases |s|
    ensures Trimmed(r)
    ensures |r| <= |s|
  {
    if |s| > 0 && IsSpace(s[0]) then Strip(s[1..])
    else if |s| > 0 && IsSpace(s[|s| - 1]) then Strip(s[..|s| - 1])
    else s
  }

  /** Stripping gives the empty string exactly when there is nothing but
      whitespace. */
  lemma {:induction false} StripEmpty(s: string)
    ensures |Strip(s)| == 0 <==> AllSpace(s)
    decreases |s|
  {
    if |s| > 0 && IsSpace(s[0]) {
      StripEmpty(s[1..]);
      assert AllSpace(s) <==> AllSpace(s[1..]) by {
        assert forall i :: 1 <= i < |s| ==> s[i] == s[1..][i - 1];
      }
    } else if |s| > 0 && IsSpace(s[|s| - 1]) {
      assert !AllSpace(s);
      assert !AllSpace(s[..|s| - 1]) by {
        assert s[..|s| - 1][0] == s[0];
      }
      StripEmpty(s[..|s| - 1]);
    }
  }

  /** Stripping leaves a trimmed string alone. */
  lemma StripTrimmed(s: string)
    requires Trimmed(s)
    ensures Strip(s) == s
  {
  }

  /** Python's `s[a:b]` for non-negative bounds: both bounds are clamped to
      the length, and an empty string results when `a >= b`. */
  function Slice(s: string, a: nat, b: nat): (r: string)
    ensures a <= b <= |s| ==> r == s[a..b]
    ensures a <= |s| <= b ==> r == s[a..]
    ensures |s| <= a ==> r == []
  {
    var lo := Min(a, |s|);
    var hi := Min(b, |s|);
    if lo <= hi then s[lo..hi] else []
  }

  /** Two adjacent slices make up the slice spanning both. */
  lemma AdjacentSlices(s: string, a: nat, b: nat, c: nat)
    requires a <= b <= c <= |s|
    ensures s[a..b] + s[b..c] == s[a..c]
  {
  }

  function CountChar(s: string, c: char): nat
  {
    if |s| == 0 then 0 else (if s[0] == c then 1 else 0) + CountChar(s[1..], c)
  }

  /** `sep.join(parts)` for a one-character separator. */
  function Join(parts: seq<string>, sep: char): string
  {
    if |parts| == 0 then []
    else if |parts| == 1 then parts[0]
    else parts[0] + [sep] + Join(parts[1..], sep)
  }

  /** `s.split(sep)` for a one-character separator: every separator cuts,
      so adjacent separators give empty fields and there is always at least
      one field. */
  function SplitOn(s: string, sep: char): (r: seq<string>)
    ensures |r| == CountChar(s, sep) + 1
    ensures forall i :: 0 <= i < |r| ==> sep !in r[i]
    ensures Join(r, sep) == s
  {
    if |s| == 0 then [[]]
    else
      var rest := SplitOn(s[1..], sep);
      if s[0] == sep then [[]] + rest
      else [[s[0]] + rest[0]] + rest[1..]
  }

  /** Splitting a joined sequence of separator-free fields gives the fields back. */
  lemma {:induction false} SplitJoin(parts: seq<string>, sep: char)
    requires |parts| >= 1
    requires forall i :: 0 <= i < |parts| ==> sep !in parts[i]
    ensures SplitOn(Join(parts, sep), sep) == parts
    decreases |parts|, |parts[0]|
  {
    if |parts| == 1 {
      SplitNoSep(parts[0], sep);
    } else if |parts[0]| == 0 {
      var tail := parts[1..];
      SplitJoin(tail, sep);
      assert Join(parts, sep) == [sep] + Join(tail, sep);
      assert ([sep] + Join(tail, sep))[1..] == Join(tail, sep);
    } else {
      var shorter := [parts[0][1..]] + parts[1..];
      assert forall i :: 0 <= i < |shorter| ==> sep !in shorter[i] by {
        forall i | 0 <= i < |shorter| ensures sep !in shorter[i] {
          if i == 0 {
            assert parts[0] == [parts[0][0]] + parts[0][1..];
          } else {
            assert shorter[i] == parts[i];
          }
        }
      }
      SplitJoin(shorter, sep);
      assert shorter[1..] == parts[1..];
      assert Join(parts, sep)[1..] == Join(shorter, sep);
      assert parts[0] == [parts[0][0]] + shorter[0];
    }
  }

  lemma {:induction false} SplitNoSep(s: string, sep: char)
    requires sep !in s
    ensures SplitOn(s, sep) == [s]
    decreases |s|
  {
    if |s| > 0 {
      SplitNoSep(s[1..], sep);
      assert [s[0]] + s[1..] == s;
    }
  }

  /** ASCII `str.lower()`. */
  function LowerChar(c: char): char
  {
    if 'A' <= c <= 'Z' then (c as int + 32) as char else c
  }

  function Lower(s: string): (r: string)
    ensures |r| == |s|
    ensures forall i :: 0 <= i < |s| ==> r[i] == LowerChar(s[i])
  {
    seq(|s|, i requires 0 <= i < |s| => LowerChar(s[i]))
  }

  /** Lowering never introduces a character that was not already a
      non-letter of the input, so separators stay absent. */
  lemma LowerKeepsAbsent(s: string, c: char)
    requires c !in s
    requires !('a' <= c <= 'z')
    ensures c !in Lower(s)
  {
  }

  predicate EndsWith(s: string, suffix: string)
  {
    |suffix| <= |s| && s[|s| - |suffix|..] == suffix
  }
}

=== FILE: windows.dfy ===
/** The two window strategies of `chunks.py`: fixed windows
    (`simple_chunking`) and sliding windows (`sliding_window_chunking`).

    Both record `end = start + size` without clamping, so the last window's
    `end` may lie past the end of the text while its `text` is cut short by
    Python's slice clamping (`Slice`).
 */
module Windows {
  import opened Wrappers
  import opened Strings
  import opened ChunkRecords

  // ---------------------------------------------------------------- simple

  /** `simple_chunking(text, size)`. */
  function SimpleChunking(text: string, size: int): (r: Result<seq<Chunk>>)
    ensures r.Failure? <==> size <= 0
    ensures r.Failure? ==> r.error == ValueError("Size must be positive.")
    ensures r.Success? ==> JoinedText(r.value) == text
    ensures r.Success? ==> (|r.value| == 0 <==> |text| == 0)
    ensures r.Success? ==> forall k :: 0 <= k < |r.value| ==>
              r.value[k].start == k * size && IsWindowOf(text, size, r.value[k])
  {
    if size <= 0 then Failure(ValueError("Size must be positive."))
    else
      var cs := SimpleFrom(text, size, 0);
      SimpleShape(text, size, 0);
      SimpleJoins(text, size, 0);
      ArithmeticStarts(cs, 0, size);
      Success(cs)
  }

  /** The loop `for i in range(i, len(text), size)`, entered at position `i`. */
  function SimpleFrom(text: string, size: int, i: nat): seq<Chunk>
    requires size > 0
    decreases |text| - i
  {
    if i >= |text| then []
    else [Chunk(i, i + size, Slice(text, i, i + size))] + SimpleFrom(text, size, i + size)
  }

  /** Windows that start at `i`, advance by `d` and each cut from `text`
      with width `size`. */
  predicate Advancing(text: string, size: int, d: int, i: nat, r: seq<Chunk>)
  {
    && (|r| > 0 ==> r[0].start == i)
    && (forall k :: 0 <= k < |r| - 1 ==> r[k + 1].start == r[k].start + d)
    && (forall k :: 0 <= k < |r| ==> i <= r[k].start && IsWindowOf(text, size, r[k]))
  }

  /** A window at `i` in front of windows advancing from `i + d`. */
  lemma ConsWindow(text: string, size: int, d: int, i: nat, c: Chunk, rest: seq<Chunk>)
    requires d > 0 && c.start == i && IsWindowOf(text, size, c)
    requires Advancing(text, size, d, i + d, rest)
    ensures Advancing(text, size, d, i, [c] + rest)
  {
    var r := [c] + rest;
    forall k | 0 <= k < |r| - 1 ensures r[k + 1].start == r[k].start + d {
      if k > 0 {
        assert r[k + 1] == rest[k] && r[k] == rest[k - 1];
      }
    }
    forall k | 0 <= k < |r| ensures i <= r[k].start && IsWindowOf(text, size, r[k]) {
      if k > 0 {
        assert r[k] == rest[k - 1];
      }
    }
  }

  /** Fixed windows start at `i`, advance by `size`, stay inside the text
      and the last one reaches its end. */
  lemma {:induction false} SimpleShape(text: string, size: int, i: nat)
    requires size > 0
    decreases |text| - i
    ensures var r := SimpleFrom(text, size, i);
      && (|r| == 0 <==> |text| <= i)
      && (|r| > 0 ==> |text| <= r[|r| - 1].end)
      && Advancing(text, size, size, i, r)
  {
    var r := SimpleFrom(text, size, i);
    if i < |text| {
      var c := Chunk(i, i + size, Slice(text, i, i + size));
      var rest := SimpleFrom(text, size, i + size);
      SimpleShape(text, size, i + size);
      assert r == [c] + rest;
      ConsWindow(text, size, size, i, c, rest);
      if |rest| > 0 {
        assert r[|r| - 1] == rest[|rest| - 1];
      }
    }
  }

  /** The fixed windows from `i` on, written one after the other, spell out
      the text from `i` on. */
  lemma {:induction false} SimpleJoins(text: string, size: int, i: nat)
    requires size > 0
    requires i <= |text|
    decreases |text| - i
    ensures JoinedText(SimpleFrom(text, size, i)) == text[i..]
  {
    if i < |text| {
      if i + size <= |text| {
        SimpleJoins(text, size, i + size);
      }
      SimpleJoinsStep(text, size, i);
    }
  }

  /** One window in front of the windows after it. */
  lemma SimpleJoinsStep(text: string, size: int, i: nat)
    requires size > 0 && i < |text|
    requires i + size <= |text| ==> JoinedText(SimpleFrom(text, size, i + size)) == text[i + size..]
    ensures JoinedText(SimpleFrom(text, size, i)) == text[i..]
  {
    var c := Chunk(i, i + size, Slice(text, i, i + size));
    var rest := SimpleFrom(text, size, i + size);
    assert SimpleFrom(text, size, i) == [c] + rest;
    JoinedCons(c, rest);
    if i + size <= |text| {
      AdjacentSlices(text, i, i + size, |text|);
    }
  }

  /** The texts of a chunk and the chunks after it, written one after the
      other. */
  lemma JoinedCons(c: Chunk, rest: seq<Chunk>)
    ensures JoinedText([c] + rest) == c.text + JoinedText(rest)
  {
    assert ([c] + rest)[1..] == rest;
  }


  /** Every window but the last holds exactly `size` characters; the last
      holds what remains from its start. */
  lemma SimpleLengths(text: string, size: int)
    requires size > 0
    ensures var cs := SimpleFrom(text, size, 0);
      && (forall k :: 0 <= k < |cs| - 1 ==> |cs[k].text| == size)
      && (|cs| > 0 ==> |cs[|cs| - 1].text| == |text| - cs[|cs| - 1].start)
  {
    var cs := SimpleFrom(text, size, 0);
    SimpleShape(text, size, 0);
    forall k | 0 <= k < |cs| - 1 ensures |cs[k].text| == size {
      assert cs[k].end == cs[k + 1].start;
    }
  }

  /** The number of windows is the ceiling of `len(text) / size`. */
  lemma SimpleCount(text: string, size: int)
    requires size > 0
    ensures |SimpleFrom(text, size, 0)| == (|text| + size - 1) / size
  {
    var cs := SimpleFrom(text, size, 0);
    var n := |cs|;
    SimpleShape(text, size, 0);
    if n == 0 {
      assert |text| == 0;
    } else {
      ArithmeticStarts(cs, 0, size);
      assert cs[n - 1].start == (n - 1) * size;
      CeilingDivision(|text|, size, n);
    }
  }

  /** `n` is the ceiling of `len / size` when the `n - 1`-th multiple of
      `size` is still below `len` and the `n`-th is not. */
  lemma CeilingDivision(len: int, size: int, n: int)
    requires size > 0 && n > 0
    requires (n - 1) * size < len <= (n - 1) * size + size
    ensures (len + size - 1) / size == n
  {
    assert (n - 1) * size == n * size - size;
    DivUnique(len + size - 1, size, n);
  }

  lemma DivUnique(a: int, b: int, q: int)
    requires b > 0
    requires q * b <= a < q * b + b
    ensures a / b == q
  {
    var d := a / b;
    var m := a % b;
    assert a == d * b + m && 0 <= m < b;
    if d < q {
      assert (q - d) * b == q * b - d * b;
      MulAtLeast(q - d, b);
    } else if d > q {
      assert (d - q) * b == d * b - q * b;
      MulAtLeast(d - q, b);
    }
  }

  lemma {:induction false} MulAtLeast(x: int, b: int)
    requires x >= 1 && b > 0
    ensures x * b >= b
    decreases x
  {
    if x > 1 {
      MulAtLeast(x - 1, b);
      assert x * b == (x - 1) * b + b;
    }
  }

  // --------------------------------------------------------------- sliding

  /** `sliding_window_chunking(text, size, step)`. */
  function SlidingWindowChunking(text: string, size: int, step: int): (r: Result<seq<Chunk>>)
    ensures r.Failure? <==> size <= 0 || step <= 0
    ensures r.Failure? ==> r.error == ValueError("Size and step must be positive.")
    ensures r.Success? ==> (|r.value| == 0 <==> |text| == 0)
    ensures r.Success? ==> forall k :: 0 <= k < |r.value| ==>
              r.value[k].start == k * step && IsWindowOf(text, size, r.value[k])
    ensures r.Success? ==> forall k :: 0 <= k < |r.value| - 1 ==> r.value[k].end < |text|
    ensures r.Success? && |r.value| > 0 ==>
              var last := r.value[|r.value| - 1];
              |text| <= last.end || |text| <= last.start + step
  {
    if size <= 0 || step <= 0 then Failure(ValueError("Size and step must be positive."))
    else
      var cs := SlidingFrom(text, size, step, 0);
      SlidingShape(text, size, step, 0);
      SlidingStops(text, size, step, 0);
      ArithmeticStarts(cs, 0, step);
      Success(cs)
  }

  /** The loop `for i in range(i, len(text), step)` with its early `break`
      once a window reaches the end of the text, entered at position `i`. */
  function SlidingFrom(text: string, size: int, step: int, i: nat): seq<Chunk>
    requires size > 0 && step > 0
    decreases |text| - i
  {
    if i >= |text| then []
    else
      var c := Chunk(i, i + size, Slice(text, i, i + size));
      if i + size >= |text| then [c]
      else [c] + SlidingFrom(text, size, step, i + step)
  }

  /** Sliding windows start at `i`, advance by `step` and stay inside the
      text. */
  lemma {:induction false} SlidingShape(text: string, size: int, step: int, i: nat)
    requires size > 0 && step > 0
    decreases |text| - i
    ensures var r := SlidingFrom(text, size, step, i);
      && (|r| == 0 <==> |text| <= i)
      && Advancing(text, size, step, i, r)
  {
    var r := SlidingFrom(text, size, step, i);
    if i < |text| {
      var c := Chunk(i, i + size, Slice(text, i, i + size));
      if i + size < |text| {
        var rest := SlidingFrom(text, size, step, i + step);
        SlidingShape(text, size, step, i + step);
        assert r == [c] + rest;
        ConsWindow(text, size, step, i, c, rest);
      } else {
        assert r == [c] + [];
        ConsWindow(text, size, step, i, c, []);
      }
    }
  }

  /** Every sliding window but the last ends before the end of the text,
      and the loop stops either because the last window reaches the end or
      because the next start would lie past it. */
  lemma {:induction false} SlidingStops(text: string, size: int, step: int, i: nat)
    requires size > 0 && step > 0
    decreases |text| - i
    ensures var r := SlidingFrom(text, size, step, i);
      && (forall k :: 0 <= k < |r| - 1 ==> r[k].end < |text|)
      && (|r| > 0 ==> |text| <= r[|r| - 1].end || |text| <= r[|r| - 1].start + step)
  {
    var r := SlidingFrom(text, size, step, i);
    if i < |text| && i + size < |text| {
      var c := Chunk(i, i + size, Slice(text, i, i + size));
      var rest := SlidingFrom(text, size, step, i + step);
      SlidingStops(text, size, step, i + step);
      assert r == [c] + rest;
      forall k | 0 <= k < |r| - 1 ensures r[k].end < |text| {
        if k > 0 {
          assert r[k] == rest[k - 1];
        }
      }
      if |rest| > 0 {
        assert r[|r| - 1] == rest[|rest| - 1];
      }
    } else if i < |text| {
      assert r == [Chunk(i, i + size, Slice(text, i, i + size))];
    }
  }

  /** With `step <= size` on non-empty text the last window reaches the end
      of the text and every position lies in some window. */
  lemma SlidingCoversText(text: string, size: int, step: int)
    requires 0 < step <= size
    requires |text| > 0
    ensures var cs := SlidingFrom(text, size, step, 0);
      && |cs| > 0
      && |text| <= cs[|cs| - 1].end
      && forall p :: 0 <= p < |text| ==> Covers(cs, p)
  {
    var cs := SlidingFrom(text, size, step, 0);
    SlidingShape(text, size, step, 0);
    SlidingStops(text, size, step, 0);
    forall p | 0 <= p < |text| ensures Covers(cs, p) {
      CoveredFrom(cs, 0, p, step, |text|);
    }
  }

  /** Windows whose starts advance by at most their width, the last of which
      reaches `len`, cover every position from the first start up to `len`. */
  lemma {:induction false} CoveredFrom(cs: seq<Chunk>, j: nat, p: int, step: int, len: int)
    requires j < |cs|
    requires cs[j].start <= p < len
    requires forall k :: 0 <= k < |cs| - 1 ==> cs[k + 1].start == cs[k].start + step
    requires forall k :: 0 <= k < |cs| ==> cs[k].start + step <= cs[k].end
    requires len <= cs[|cs| - 1].end
    ensures Covers(cs, p)
    decreases |cs| - j
  {
    if j == |cs| - 1 || p < cs[j + 1].start {
      assert cs[j].start <= p < cs[j].end;
    } else {
      CoveredFrom(cs, j + 1, p, step, len);
    }
  }

  /** With `step > size` the text may end past the last window: here the
      last window stops short and the final character lies in no window. */
  lemma SlidingMayDropTail(text: string, size: int, step: int)
    requires 0 < size < step
    requires |text| == step + size + 1
    ensures var cs := SlidingFrom(text, size, step, 0);
      && |cs| == 2
      && cs[1].end < |text|
      && !Covers(cs, |text| - 1)
  {
    var cs := SlidingFrom(text, size, step, 0);
    var tail := SlidingFrom(text, size, step, step);
    assert SlidingFrom(text, size, step, step + step) == [];
    assert |tail| == 1;
    assert cs == [cs[0]] + tail;
  }
}

=== FILE: wrappers.dfy ===
/** Failure-carrying result types shared by the whole model.

    The Python code signals bad input by raising an exception; here every
    such path returns a `Failure` naming the exception.
 */
module Wrappers {

  datatype Option<+T> = None | Some(value: T)

  /** The exceptions the modelled code raises: `ValueError` with its
      message, `KeyError` with the missing key, and `TypeError` for any
      operation applied to a JSON value of the wrong kind (Python raises
      `TypeError` or `AttributeError` there). */
  datatype Error =
    | ValueError(message: string)
    | KeyError(key: string)
    | TypeError(operation: string)

  datatype Result<+R> = Success(value: R) | Failure(error: Error)

  function Min(a: int, b: int): int
  {
    if a <= b then a else b
  }
}
